=== FILE: README.md ===
# generator-web-starter core, modelled in Dafny

This project models the composition core of the `web-starter` Yeoman generator. Every piece is immutable data with total functions.

- **Registry** (`registry.dfy`): the two process-wide stores, `plugins` and `devDependencies`, which add-ons read and write through `getPlugin`/`addPlugin`/`getDevDependency`/`addDevDependency`. A store is a sequence of (name, value) pairs in JavaScript object order. The module also covers:
  - the tool seeding itself as `~<version>`;
  - composition of add-ons in selection order, where what each add-on writes is a parameter;
  - the `"name": "range"` block rendered into `package.json`.
- **Discovery** (`discovery.dfy`): the lookup patterns, and the guard that registers a local generator only when its namespace is undefined or absent from the snapshot taken before the loop.
- **Catalog, Sorting, Choices** (`catalog.dfy`, `sorting.dfy`, `choices.dfy`): the add-on selection list.
  - A generator qualifies when its key splits on `:` into two parts and the second is `web-starter`.
  - Its entry is the defaults overridden by the package's `webStarter` block.
  - The entries are sorted stably by `label` and then by `category`, with undefined sorting last.
  - A separator opens every maximal run of one category.
- **Answers, Prompts** (`answers.dfy`, `prompts.dfy`):
  - the right-biased merge of defaults, stored configuration and prompt answers;
  - the four main questions;
  - the order add-ons are composed in;
  - the stored configuration the repository step reads;
  - the one shared record that the Gemfile, package and bower steps see and mutate in turn;
  - JavaScript loose equality and truthiness as far as the `when` predicates need them.
- **Transfer** (`transfer.dfy`): which paths of the fetched starter repository are handed to `copyTpl` to be copied as they are. It has two definitions: the code as written, and the evidently intended exclusion (see Findings). A target is built as `dirname + '/' + name`, so a top-level template gets the target `./name`; the intended exclusion compares the file that path names, `name`, with the listed files.
- **DrupalConfig** (`drupal.dfy`): the Drupal platform configuration. It has constant defaults, an always-empty npm package list, and four questions gated by predicates over the answers alone.
- **Text, Wrappers** (`text.dfy`, `wrappers.dfy`): `split`, `join`, string `<`, decimal index keys, and `Option`.

Three places where the code does less than its own comments or names suggest:
- **Registration.** The comment on app/index.js:103 says a global module is not added when a local one exists. The guard on line 104 compares each candidate only against the snapshot `env.namespaces()` taken on line 83, before the loop. So two local generators with the same fresh namespace are both registered (`Discovery.DuplicateNamespaceRegisteredTwice`). A generator reached without a link has an undefined namespace and is always registered (`Discovery.DirectCandidateAlwaysRegistered`).
- **Template marker.** The glob of app/index.js:212 selects names *ending* in `_`, while line 219 strips the *first* character of the name to form the target.
- **Transfer exclusion.** The comment on app/index.js:222 says templates and targets are excluded. The code does not exclude the targets (see Findings).

## Model

| member | source | states |
|---|---|---|
| Registry.Get | app/index.js:31-33 | `null` (None) exactly for a name that holds no stored value; otherwise a value stored under that name |
| Registry.Add | app/index.js:38-40 | after `store[name] = value`, get returns the value, every other name reads as before, a present name keeps its enumeration position and a new one is appended last, and names stay unique |
| Registry.GetPlugin | app/index.js:31-33 | `getPlugin` is null exactly for a plugin with no stored value |
| Registry.AddPlugin | app/index.js:38-40 | `addPlugin` sets that plugin, leaves other plugins and all dependencies alone |
| Registry.GetDevDependency | app/index.js:56-58 | `getDevDependency` is null exactly for a dependency with no stored value |
| Registry.AddDevDependency | app/index.js:63-65 | `addDevDependency` sets that dependency, leaves other dependencies and all plugins alone |
| Registry.GetIsMapLookup | app/index.js:31-33 | get agrees with the store read as a finite map |
| Registry.AddIsMapUpdate | app/index.js:38-40 | add is exactly map update on that finite map |
| Registry.LastWriterWins | app/index.js:63-65 | a second write to a name leaves no trace of the first |
| Registry.Seed | app/index.js:73 | the tool records itself as `~` + its version; on a fresh registry it is the only dependency |
| Registry.ApplyLastWriterWins | app/index.js:63-65 | after a sequence of writes a dependency holds the last value written to it, or its earlier value |
| Registry.ApplyKeepsNamePrefix | app/index.js:63-65 | writes never drop or reorder existing dependency names |
| Registry.ComposeOnlySelected | app/index.js:188-200 | only the selected add-ons act: behaviours that agree on the selected names compose to the same registry |
| Registry.ComposeKeepsNamePrefix | app/index.js:188-200 | composing add-ons keeps the earlier dependency names as a prefix |
| Registry.ComposeSplit | app/index.js:188-200 | add-ons run front to back: composing `s1 + s2` is composing `s1` and then `s2` from the registry `s1` left |
| Registry.ComposeUntouched | app/index.js:188-200 | add-ons that never write a dependency leave its value as it was |
| Registry.ComposeLastWriterWins | app/index.js:188-200 | across add-ons the last writer in selection order wins: if the add-on at position `i` always ends by writing `name := value` and no later add-on writes `name`, the composed registry holds `value`, whatever earlier add-ons wrote |
| Registry.SeedStaysFirst | app/index.js:73 | whatever the add-ons write, the tool's own package stays the first dependency |
| Registry.RenderDependenciesLoop | app/index.js:256-258 | the per-pair loop builds exactly the lines of the pairs, in order, joined by `,\n    ` |
| Registry.RenderEmpty | app/index.js:256-258 | an empty store renders as the empty string |
| Registry.RenderAdd | app/index.js:256-258 | adding a new dependency appends its `"name": "range"` line after the separator |
| Registry.RenderStartsWithFirst | app/index.js:256-258 | the block opens with the first pair's line |
| Registry.RenderTwoDependencies | app/index.js:256-258 | `a ^1.0` then `b ~2.3` render as both lines, comma-newline joined, in insertion order |
| Discovery.Patterns | app/index.js:86-90 | one pattern per (lookup, module) pair |
| Discovery.PatternAt | app/index.js:86-90 | pattern `i*|modules|+j` joins module j to lookup i (lookup-major order) |
| Discovery.NamespaceOf | app/index.js:97-101 | a namespace is computed exactly when the resolved path differs from the nominal one |
| Discovery.Register | app/index.js:92-108 | the registration loop makes exactly the registrations of the reference definition |
| Discovery.RegisteredIff | app/index.js:97-106 | a candidate is registered iff its namespace is undefined or not in the snapshot |
| Discovery.NothingUnadmitted | app/index.js:103-106 | every registration comes from a candidate and has an admitted namespace |
| Discovery.RegistrationsSplit | app/index.js:83 | the snapshot is never refreshed: later candidates are judged independently of earlier registrations |
| Discovery.DuplicateNamespaceRegisteredTwice | app/index.js:104-106 | two linked generators with the same fresh namespace are both registered |
| Discovery.DirectCandidateAlwaysRegistered | app/index.js:99-106 | a generator reached directly is registered with an undefined namespace even if its namespace is known |
| Text.JoinSplit | app/index.js:117 | joining the pieces of `split(':')` gives back the key |
| Text.SplitJoin | app/index.js:117 | splitting a join of separator-free pieces gives back the pieces |
| Catalog.QualifiesIff | app/index.js:117-119 | a key qualifies iff it is a colon-free name followed by `:web-starter` |
| Catalog.MakeEntry | app/index.js:121-125 | an entry is category `Other`, name and value the key, overridden field by field by the `webStarter` block; label only from the block |
| Catalog.MakeEntryIsExtend | app/index.js:121-125 | read as an object, the entry is `_.extend` of the defaults object by the block object: every key the block has overrides, every other default stays |
| Catalog.EntriesIff | app/index.js:110-130 | an entry exists exactly for each qualifying generator, and every entry comes from one |
| Catalog.EntriesSplit | app/index.js:110-130 | the map-and-compact keeps the metadata order |
| Text.StrLessIrreflexive | app/index.js:131-132 | string `<` is irreflexive |
| Text.StrLessTransitive | app/index.js:131-132 | string `<` is transitive |
| Text.StrLessTotal | app/index.js:131-132 | any two distinct strings are ordered one way |
| Sorting.BelowTransitive | app/index.js:131-132 | the sort order (undefined last) is transitive |
| Sorting.BelowTotal | app/index.js:131-132 | any two distinct sort keys are ordered one way |
| Sorting.SortBy | app/index.js:131 | `sortBy` returns a permutation of its input |
| Sorting.SortBySorted | app/index.js:131 | `sortBy` output is ordered by the field |
| Sorting.SortByStable | app/index.js:131 | for every key value, entries with that key keep their input order |
| Sorting.CatalogOrder | app/index.js:131-132 | the two sorts return a permutation of the entries |
| Sorting.CatalogOrderSpec | app/index.js:131-132 | the result is ordered by category; within each category by label; equal (category, label) entries keep their input order |
| Choices.ChoicesAfterSnoc | app/index.js:136-143 | one more entry adds a separator iff its category differs from the previous entry's (or it is first), then its choice |
| Choices.AppendChoices | app/index.js:136-144 | the `forEach` loop appends exactly the choice list to the existing `sub_generators` |
| Choices.PicksOfAt | app/index.js:140-143 | the i-th `{name, value}` choice is that of the i-th entry |
| Choices.PicksOfChoices | app/index.js:136-144 | removing the separators leaves the `{name, value}` of every entry, in order |
| Choices.RunsFlatten | app/index.js:136-139 | the category runs concatenate back to the sorted entries |
| Choices.RunsUniform | app/index.js:136-139 | each run is non-empty and of one category |
| Choices.RunsMaximal | app/index.js:136-139 | neighbouring runs differ in category |
| Choices.ChoicesByRuns | app/index.js:136-144 | the choice list is each maximal run preceded by one separator naming its category |
| Choices.BuildChoicesSpec | app/index.js:110-144 | the whole pipeline: the sorted catalog is a permutation of the qualifying entries, and the choices are its runs each opened by a separator |
| Prompts.LooselyEqualsWord | generators/app/configs/drupal/index.js:24 | `answer == word` holds exactly for the word as text and for a selection of that word alone |
| Prompts.LooselyEqualsText | generators/app/configs/drupal/index.js:24 | `==` against a word holds for equal text or a one-item selection of it, never for undefined, booleans or objects |
| Answers.Merge | app/index.js:151-157 | `_.extend`: keys are the union; the later record wins where both have a key |
| Answers.AppQuestions | app/index.js:159-183 | four questions named `name`, `repository`, `plugins`, `refspec` in that order; each default is the same-named configuration field; the add-on question is a checkbox offering the built choice list and the other three are text inputs |
| Answers.QuestionDefaults | app/index.js:151-183 | on a first run no add-on is preselected and version `1.1.x` is offered; stored values are offered otherwise |
| Answers.AnswerPrecedence | app/index.js:186 | a prompt answer wins, then a stored value, then a default |
| Answers.RefspecResolution | app/index.js:151-157 | the answers record's refspec is the answer, else the stored value, else `1.1.x` |
| Answers.RepositoryRefspec | app/index.js:184 | the repository step's refspec is the answer, else the stored one; the default never reaches it |
| Answers.ComposeOrder | app/index.js:188 | the list iterated is the `plugins` answer when it is a list, and empty otherwise |
| Answers.LaterAddOnWins | app/index.js:188-200 | add-ons act in the order of the `plugins` answer: of the selected add-ons writing a dependency, the one answered last decides its value in the run's registry |
| Answers.NoSelectionOnlySeed | app/index.js:188-200 | with no list answer for `plugins`, the registry holds only the tool's own `~version` entry and no plugin |
| Answers.SelectionDecides | app/index.js:188-200 | add-ons outside the selection have no effect on the registry |
| Answers.Writing | app/index.js:238-246 | the Gemfile step sees the answers record unchanged |
| Answers.WritingContexts | app/index.js:252-271 | package sees the rendered dependencies and the name snake-cased once; bower, on the same record, the same dependencies and the name snake-cased twice; nothing else changes |
| Answers.BowerNameMatchesPackage | app/index.js:260-271 | the bower name equals the package name exactly when snake-casing is idempotent on it |
| Answers.PackageListsToolFirst | app/index.js:256-258 | after any add-on writes, the dependency block opens with the tool's own package at the range it holds last |
| Transfer.DifferenceIff | app/index.js:223 | `_.difference(files, ...)`: a path is in the result iff it is in the files and in no excluded list |
| Transfer.DifferenceSubsequence | app/index.js:223 | the difference keeps the input order |
| Transfer.DifferenceCount | app/index.js:223 | a kept path keeps its multiplicity; an excluded one is gone |
| Text.DecimalRoundTrip | app/index.js:223 | an array index key reads back as the index |
| Text.DecimalInjective | app/index.js:223 | distinct indexes have distinct keys |
| Transfer.TransferIff | app/index.js:217-223 | as written, a path is handed to `copyTpl` iff it is neither a template nor one of the strings "0" to n-1 |
| Transfer.TransferOrder | app/index.js:223 | the paths handed to `copyTpl` are a subsequence of the listed paths, each kept with its multiplicity |
| Transfer.NonNumericFileKept | app/index.js:223 | a non-template path with a non-digit character is always handed to `copyTpl` |
| Transfer.NoTemplateTransferred | app/index.js:212-223 | when the templates are the glob's matches, no path handed to `copyTpl` matches the template glob |
| Transfer.TargetShape | app/index.js:219 | `dirname + '/' + basename.substring(1)` splits into the template's directory segments (`.` for a top-level template) followed by the name without its first character |
| Transfer.RenderedTopLevel | app/index.js:219 | a top-level template's target `./name` names the file `name` with the first character dropped |
| Transfer.TransferIntendedIff | app/index.js:222 | as intended, a path is handed to `copyTpl` iff it is neither a template nor the file a template renders to |
| Transfer.TransferAsWrittenCounterexample | app/index.js:212-223 | files `0`, `d`, `d/.env_`, `d/_.env_`, where the glob matches only `d/_.env_`: as written the paths handed to `copyTpl` are `d`, `d/.env_`, so `0` is dropped; as intended they are `0`, `d` |
| DrupalConfig.Defaults | generators/app/configs/drupal/index.js:1-6 | the defaults hold exactly features, cmi, solr and drupal_theme |
| DrupalConfig.DefaultsFeedPrompts | generators/app/configs/drupal/index.js:1-6 | fed the defaults, the questions default to yes, no, yes and `gesso` |
| DrupalConfig.NpmPackages | generators/app/configs/drupal/index.js:8-13 | no npm package, whatever the configuration |
| DrupalConfig.GetPrompts | generators/app/configs/drupal/index.js:17-53 | four prompts; each default is the same-named configuration field |
| DrupalConfig.PromptOrder | generators/app/configs/drupal/index.js:18-53 | the order is features, cmi, solr, drupal_theme; three confirms then an input |
| DrupalConfig.ModuleQuestionsAsked | generators/app/configs/drupal/index.js:23-25 | for any answers, features, cmi and solr are asked iff platform is `drupal` and install type is `advanced`, each as text or as the single selected item; an unanswered install type asks nothing |
| DrupalConfig.NothingAskedWithoutPlatform | generators/app/configs/drupal/index.js:23-52 | unless the platform answer is `drupal` (as text or as the single selected item), no question is asked |
| DrupalConfig.ThemeQuestionAsked | generators/app/configs/drupal/index.js:50-52 | for any answers, the theme question is asked iff platform is `drupal` (as text or the single selected item) and the Compass answer is truthy |
| DrupalConfig.GatesIgnoreConfig | generators/app/configs/drupal/index.js:17-53 | the `when` predicates never read the configuration |

## Left out

- Yeoman environment calls are inputs or parameters: `env.lookup`, `findGeneratorsIn`, `env.namespace`, `register` and `getGeneratorsMeta`. The same holds for `fs.realpathSync`, the `globby`/`glob` directory walks and reading each `package.json`, because these are I/O. A malformed `package.json` makes `JSON.parse` throw, and the model has no such error path.
- `path.join` is not modelled. A pattern is the pair it is joined from, and a candidate carries its two paths already joined.
- The network fetch (`remoteAsync`), `copyTpl` rendering with the `$` delimiter and writing files are left out, because they are I/O and a foreign template engine.
- `inquirer` prompting is left out; the answers are an input record. Add-on invocation through `composeWith` is also left out; an add-on is a parameter that returns the writes it makes.
- Answers.ComposeOrder: a non-list `plugins` answer composes nothing. In the source, lodash would iterate a string character by character, but a checkbox prompt only ever answers with a list.
- Registry.Compose: add-on writes are modelled as happening before the writing phase. Writes an add-on makes later, in its own writing methods, would be missed by the package step, and Yeoman's run-loop scheduling is not modelled.
- Registry.Get: in the source a missing name reads as `null`, a name stored with `null` reads as `null`, and a name stored with `undefined` reads as `undefined`. Values in the model are never `null` or `undefined`, so None there means only that the name holds no value.
- Catalog.MakeEntry: the `webStarter` fields of a generator's `package.json` are modelled as strings. JSON `null`, numbers, booleans or objects in those fields, which `_.extend` would copy and the sort would compare with JavaScript `<`, are not modelled.
- Transfer.TransferFiles: the glob lists directories as well as files, so directories are entries of `transfer_files`. What `copyTpl` does with a directory (copying what lies below it, templates included) is not modelled; the model states only which paths are handed to it.
- Registry.Add: `addPlugin('hasOwnProperty', v)` shadows the method that `getPlugin` calls, so later reads call `v` (a TypeError unless `v` is a function). Own-property lookup is modelled as if it cannot be shadowed.
- Transfer.Target: `path.dirname` is modelled for relative paths with non-empty segments, as the glob returns them. Absolute paths, doubled and trailing `/` are not modelled.
- JavaScript enumerates integer-like keys first, in numeric order, and treats `__proto__` specially. Stores model plain insertion order, because package and plugin names are not integer-like.
- String order compares characters, not UTF-16 code units. The two agree outside the supplementary planes.
- `_.snakeCase` is an uninterpreted parameter, because it is an opaque lodash routine.
- Prompts.LooselyEquals is defined only against lower-case word literals, the only ones the `when` predicates use. Numbers and `null` are not answer values in the model.
- Promise sequencing and async steps are not modelled. Each phase is a function of the previous phase's result.
- `getPlugins` and `getDevDependencies` hand out the live objects, and `getNpmPackages` hands out one shared array. That aliasing is not modelled.
- `sub_generators` is a module-level array that persists across runs. `Choices.AppendChoices` takes its earlier contents as an explicit argument.

## Findings

| source | as written | input that shows it | evidently intended | confidence | as-written member | corrected member |
|---|---|---|---|---|---|---|
| app/index.js:212-223 | `_.each` returns `templates` unchanged, so `_.values` gives the templates and `_.keys` gives "0".."n-1". Template targets are not excluded, and files named like an index are. | files `0`, `d`, `d/.env_`, `d/_.env_` with template `d/_.env_` (the glob skips the dot file `d/.env_`): the paths handed to `copyTpl` are `d`, `d/.env_`, so `0` is lost and `d/.env_` is copied over the rendered template | exclude templates and their targets (the comment on line 222), and copy `0` | high (read from app/index.js:212-223; not executed) | Transfer.TransferAsWrittenCounterexample | Transfer.TransferIntendedIff |

=== FILE: answers.dfy ===
/** The answers record of app/index.js: the defaults of the prompting step,
    merged with the stored configuration and then with the prompt answers;
    the order in which selected add-ons are composed; and the records the
    writing steps hand to their templates, which share and mutate one
    object. */
module Answers {
  import opened Wrappers
  import opened Registry
  import opened Choices
  import opened Prompts

  const DefaultRefspec := "1.1.x"

  /** The package name the defaults record the tool's own version under. */
  const ToolPackage := "generator-web-starter"

  /** The defaults of the prompting step; `version` is the tool's own version. */
  function AppDefaults(version: string): Record {
    map["plugins" := Strs([]),
        "refspec" := Str(DefaultRefspec),
        "theme_path" := Str(""),
        "build_path" := Str(""),
        "package_file" := Obj(map["devDependencies" := Obj(map[ToolPackage := Str(version)])])]
  }

  /** `_.extend(base, over)`: every key of `over` is copied onto `base`,
      replacing the value already there. */
  function Merge(base: Record, over: Record): (r: Record)
    ensures forall k :: k in r <==> k in base || k in over
    ensures forall k :: k in over ==> r[k] == over[k]
    ensures forall k :: k !in over && k in base ==> r[k] == base[k]
  {
    base + over
  }

  /** `config` of the prompting step: the defaults under the stored configuration. */
  function Config(version: string, stored: Record): Record {
    Merge(AppDefaults(version), stored)
  }

  /** The four questions of the prompting step; the add-on checkbox offers
      the choice list built at start-up. */
  function AppQuestions(config: Record, choices: seq<Choice>): (qs: seq<Question>)
    ensures |qs| == 4
    ensures [qs[0].name, qs[1].name, qs[2].name, qs[3].name] == ["name", "repository", "plugins", "refspec"]
    ensures forall i :: 0 <= i < |qs| ==> qs[i].default == Field(config, qs[i].name)
    ensures qs[0].kind == Input && qs[1].kind == Input && qs[3].kind == Input
    ensures qs[2].kind == Checkbox(choices)
  {
    [Question(Input, "name", "Project name (machine name)", Field(config, "name")),
     Question(Input, "repository", "Repository clone URL", Field(config, "repository")),
     Question(Checkbox(choices), "plugins", "Select plugins", Field(config, "plugins")),
     Question(Input, "refspec", "Version", Field(config, "refspec"))]
  }

  /** On a first run nothing is stored: no add-on is preselected and the
      version offered is 1.1.x; a stored value is offered instead when there
      is one. */
  lemma QuestionDefaults(version: string, stored: Record, choices: seq<Choice>)
    ensures var qs := AppQuestions(Config(version, stored), choices);
      && qs[2].default == Some(if "plugins" in stored then stored["plugins"] else Strs([]))
      && qs[3].default == Some(if "refspec" in stored then stored["refspec"] else Str(DefaultRefspec))
      && (qs[0].default.Some? <==> "name" in stored)
  {
    var d := AppDefaults(version);
    assert "plugins" in d && "refspec" in d && "name" !in d;
  }

  /** `this.answers`: the configuration with the prompt answers on top. */
  function Answers(version: string, stored: Record, prompt: Record): Record {
    Merge(Config(version, stored), prompt)
  }

  /** An answer given at the prompt wins, then a stored value, then a default. */
  lemma AnswerPrecedence(version: string, stored: Record, prompt: Record, key: string)
    ensures var a := Answers(version, stored, prompt);
      && (key in a <==> key in prompt || key in stored || key in AppDefaults(version))
      && (key in prompt ==> a[key] == prompt[key])
      && (key !in prompt && key in stored ==> a[key] == stored[key])
      && (key !in prompt && key !in stored && key in AppDefaults(version) ==> a[key] == AppDefaults(version)[key])
  {
  }

  /** The refspec in the answers record: the answer, else the stored value,
      else 1.1.x. */
  lemma RefspecResolution(version: string, stored: Record, prompt: Record)
    ensures Field(Answers(version, stored, prompt), "refspec")
         == Some(if "refspec" in prompt then prompt["refspec"]
                 else if "refspec" in stored then stored["refspec"]
                 else Str(DefaultRefspec))
  {
    AnswerPrecedence(version, stored, prompt, "refspec");
  }

  /** `this.config.set(answers)`: the answers are stored over the stored
      configuration; the prompting defaults are not stored. */
  function Persist(stored: Record, prompt: Record): Record {
    Merge(stored, prompt)
  }

  /** The repository step reads the refspec from the stored configuration,
      not from the answers record: it is the answer when one was given,
      else the earlier stored value, and the 1.1.x default never reaches it. */
  lemma RepositoryRefspec(version: string, stored: Record, prompt: Record)
    ensures Field(Persist(stored, prompt), "refspec")
         == (if "refspec" in prompt then Some(prompt["refspec"]) else Field(stored, "refspec"))
    ensures "refspec" in prompt ==>
              Field(Persist(stored, prompt), "refspec") == Field(Answers(version, stored, prompt), "refspec")
  {
  }

  /** The add-ons composed, in the order of the `plugins` answer. The
      checkbox prompt answers with a list of values; any other shape
      composes nothing. */
  function ComposeOrder(prompt: Record): (order: seq<string>)
    ensures "plugins" in prompt && prompt["plugins"].Strs? ==> order == prompt["plugins"].items
    ensures !("plugins" in prompt && prompt["plugins"].Strs?) ==> order == []
  {
    match Field(prompt, "plugins")
    case Some(Strs(items)) => items
    case _ => []
  }

  /** The registry after start-up and composition: the tool's own entry is
      seeded first, then each selected add-on, in answer order, makes the
      writes `addOn` gives for it. */
  function RunRegistry<P>(pkgName: string, pkgVersion: string, prompt: Record,
                          addOn: (string, Registry<P>) -> seq<Write<P>>): Registry<P> {
    Compose(Seed(Empty(), pkgName, pkgVersion), ComposeOrder(prompt), addOn)
  }

  /** Without a list answer for `plugins` no add-on runs: the registry holds
      the tool's own entry and nothing else. */
  lemma NoSelectionOnlySeed<P>(pkgName: string, pkgVersion: string, prompt: Record,
                               addOn: (string, Registry<P>) -> seq<Write<P>>)
    requires !("plugins" in prompt && prompt["plugins"].Strs?)
    ensures RunRegistry(pkgName, pkgVersion, prompt, addOn).devDependencies.pairs == [(pkgName, "~" + pkgVersion)]
    ensures RunRegistry(pkgName, pkgVersion, prompt, addOn).plugins.pairs == []
  {
  }

  /** Only the add-ons the answer selects act: behaviours that agree on the
      selected names give the same registry, whatever unselected add-ons
      would have written. */
  lemma SelectionDecides<P>(pkgName: string, pkgVersion: string, prompt: Record,
                            a1: (string, Registry<P>) -> seq<Write<P>>,
                            a2: (string, Registry<P>) -> seq<Write<P>>)
    requires "plugins" in prompt && prompt["plugins"].Strs?
    requires forall n, q :: n in prompt["plugins"].items ==> a1(n, q) == a2(n, q)
    ensures RunRegistry(pkgName, pkgVersion, prompt, a1) == RunRegistry(pkgName, pkgVersion, prompt, a2)
  {
    ComposeOnlySelected(Seed(Empty(), pkgName, pkgVersion), ComposeOrder(prompt), a1, a2);
  }

  /** Add-ons act in the order of the `plugins` answer, so of two selected
      add-ons writing the same dependency the one answered later wins: when
      the add-on at position `i` always ends by writing `name := value` and
      none after it writes `name`, the run leaves `value`. */
  lemma LaterAddOnWins<P>(pkgName: string, pkgVersion: string, prompt: Record,
                          addOn: (string, Registry<P>) -> seq<Write<P>>,
                          i: nat, name: string, value: string)
    requires "plugins" in prompt && prompt["plugins"].Strs?
    requires i < |prompt["plugins"].items|
    requires forall q :: LastDependencyWrite(addOn(prompt["plugins"].items[i], q), name) == Some(value)
    requires forall j, q :: i < j < |prompt["plugins"].items| ==>
               LastDependencyWrite(addOn(prompt["plugins"].items[j], q), name).None?
    ensures GetDevDependency(RunRegistry(pkgName, pkgVersion, prompt, addOn), name) == Some(value)
  {
    ComposeLastWriterWins(Seed(Empty(), pkgName, pkgVersion), ComposeOrder(prompt), addOn, i, name, value);
  }

  /** The records the three template steps of the writing phase see. */
  datatype Contexts = Contexts(gemfile: Record, package: Record, bower: Record)

  /** The package step adds the rendered dependencies and snake-cases the
      name, on the shared record. */
  function PackageRecord(answers: Record, deps: Store<string>, snake: Option<Value> -> string): Record {
    answers["dev_dependencies" := Str(RenderDependencies(deps))]["name" := Str(snake(Field(answers, "name")))]
  }

  /** The bower step snake-cases the name of the record the package step
      left behind. */
  function BowerRecord(afterPackage: Record, snake: Option<Value> -> string): Record {
    afterPackage["name" := Str(snake(Field(afterPackage, "name")))]
  }

  /** The writing phase in order: the Gemfile step, then package, then bower. */
  function Writing(answers: Record, deps: Store<string>, snake: Option<Value> -> string): (c: Contexts)
    ensures c.gemfile == answers
  {
    var package := PackageRecord(answers, deps, snake);
    Contexts(answers, package, BowerRecord(package, snake))
  }

  /** What each template step sees: the Gemfile the answers untouched;
      package the rendered dependencies and the name snake-cased once;
      bower, sharing the record, the same dependencies and the name
      snake-cased twice. No other key changes. */
  lemma WritingContexts(answers: Record, deps: Store<string>, snake: Option<Value> -> string)
    ensures var c := Writing(answers, deps, snake);
      var once := snake(Field(answers, "name"));
      && c.package["dev_dependencies"] == Str(RenderDependencies(deps))
      && c.package["name"] == Str(once)
      && c.bower["dev_dependencies"] == Str(RenderDependencies(deps))
      && c.bower["name"] == Str(snake(Some(Str(once))))
      && c.package.Keys == c.bower.Keys == answers.Keys + {"dev_dependencies", "name"}
      && (forall k :: k in answers && k != "dev_dependencies" && k != "name" ==>
            c.package[k] == answers[k] && c.bower[k] == answers[k])
  {
  }

  /** The bower manifest carries the package manifest's name exactly when
      snake-casing that name again leaves it alone. */
  lemma BowerNameMatchesPackage(answers: Record, deps: Store<string>, snake: Option<Value> -> string)
    ensures var c := Writing(answers, deps, snake);
      var once := snake(Field(answers, "name"));
      (c.bower["name"] == c.package["name"] <==> snake(Some(Str(once))) == once)
  {
    WritingContexts(answers, deps, snake);
  }

  /** Whatever the add-ons write, the package manifest's dependency block
      opens with the tool's own package, at the range it holds last. */
  lemma PackageListsToolFirst<P>(pkgName: string, pkgVersion: string, prompt: Record,
                                 addOn: (string, Registry<P>) -> seq<Write<P>>,
                                 answers: Record, snake: Option<Value> -> string)
    ensures var deps := RunRegistry(pkgName, pkgVersion, prompt, addOn).devDependencies;
      && GetDevDependency(RunRegistry(pkgName, pkgVersion, prompt, addOn), pkgName).Some?
      && Writing(answers, deps, snake).package["dev_dependencies"].Str?
      && Line(pkgName, GetDevDependency(RunRegistry(pkgName, pkgVersion, prompt, addOn), pkgName).value)
           <= Writing(answers, deps, snake).package["dev_dependencies"].text
  {
    var r := RunRegistry(pkgName, pkgVersion, prompt, addOn);
    SeedStaysFirst(pkgName, pkgVersion, ComposeOrder(prompt), addOn);
    var s := r.devDependencies;
    assert Lookup(s.pairs, pkgName) == Some(s.pairs[0].1);
    RenderStartsWithFirst(s);
    WritingContexts(answers, s, snake);
  }
}

=== FILE: catalog.dfy ===
/** The add-on catalog entries built from the environment's generator
    metadata in `initializing.plugins` of app/index.js: a generator qualifies
    when its namespace is `<name>:web-starter`, and its entry is the defaults
    overridden by the `webStarter` block of its package descriptor. */
module Catalog {
  import opened Wrappers
  import opened Text

  /** The fields of a package's `webStarter` block that the catalog uses;
      None for a field the block does not set. */
  datatype Block = Block(category: Option<string>, name: Option<string>, value: Option<string>, sortLabel: Option<string>)

  /** One generator of `env.getGeneratorsMeta()`: its namespace key and the
      `webStarter` block of its package, None when the package has none. */
  datatype Meta = Meta(key: string, webStarter: Option<Block>)

  /** A catalog entry. `sortLabel` (the `label` field) is never set by the
      defaults, so it stays undefined (None) unless the block supplies one. */
  datatype Entry = Entry(category: string, name: string, value: string, sortLabel: Option<string>)

  const GroupName := "web-starter"
  const DefaultCategory := "Other"

  /** `key.split(':')` has exactly two parts and the second is the group name. */
  predicate Qualifies(key: string) {
    var parts := Split(key, ':');
    |parts| == 2 && parts[1] == GroupName
  }

  /** A colon-free name followed by `:web-starter`. */
  predicate GroupKey(key: string) {
    |key| >= |GroupName| + 1 && key[|key| - |GroupName| - 1..] == ":" + GroupName
    && ':' !in key[..|key| - |GroupName| - 1]
  }

  /** A key qualifies iff it is a colon-free name followed by `:web-starter`. */
  lemma QualifiesIff(key: string)
    ensures Qualifies(key) <==> GroupKey(key)
  {
    if Qualifies(key) {
      QualifiesIsGroupKey(key);
    }
    if GroupKey(key) {
      GroupKeyQualifies(key);
    }
  }

  lemma QualifiesIsGroupKey(key: string)
    requires Qualifies(key)
    ensures GroupKey(key)
  {
    var n := |GroupName| + 1;
    var parts := Split(key, ':');
    JoinSplit(key, ':');
    assert Join(parts, [':']) == parts[0] + [':'] + parts[1];
    assert key == parts[0] + ":" + GroupName;
    assert key[..|key| - n] == parts[0];
    assert key[|key| - n..] == ":" + GroupName;
  }

  lemma GroupKeyQualifies(key: string)
    requires GroupKey(key)
    ensures Qualifies(key)
  {
    var n := |GroupName| + 1;
    var p := key[..|key| - n];
    assert key == p + [':'] + GroupName;
    SplitAfterFreePrefix(p, ':', GroupName);
    SplitFree(GroupName, ':');
  }

  /** `_.extend({category: 'Other', name: key, value: key}, webStarter || {})`. */
  function MakeEntry(key: string, webStarter: Option<Block>): (e: Entry)
    ensures webStarter.None? ==> e == Entry(DefaultCategory, key, key, None)
    ensures webStarter.Some? ==>
      && e.category == webStarter.value.category.GetOr(DefaultCategory)
      && e.name == webStarter.value.name.GetOr(key)
      && e.value == webStarter.value.value.GetOr(key)
      && e.sortLabel == webStarter.value.sortLabel
  {
    var b := webStarter.GetOr(Block(None, None, None, None));
    Entry(b.category.GetOr(DefaultCategory), b.name.GetOr(key), b.value.GetOr(key), b.sortLabel)
  }

  /** The keys an entry object can hold: `category`, `name`, `value`, `label`. */
  datatype Key = CategoryKey | NameKey | ValueKey | LabelKey

  /** The defined fields of a plain object, by key. */
  function Fields(category: Option<string>, name: Option<string>, value: Option<string>, sortLabel: Option<string>): map<Key, string> {
    (if category.Some? then map[CategoryKey := category.value] else map[])
    + (if name.Some? then map[NameKey := name.value] else map[])
    + (if value.Some? then map[ValueKey := value.value] else map[])
    + (if sortLabel.Some? then map[LabelKey := sortLabel.value] else map[])
  }

  /** An entry read as the object it stands for. */
  function EntryObject(e: Entry): map<Key, string> {
    Fields(Some(e.category), Some(e.name), Some(e.value), e.sortLabel)
  }

  /** The `webStarter` block read as an object; `{}` when there is none. */
  function BlockObject(webStarter: Option<Block>): map<Key, string> {
    match webStarter
    case None => map[]
    case Some(b) => Fields(b.category, b.name, b.value, b.sortLabel)
  }

  /** The entry is `_.extend` on objects: the defaults object, every key of
      the block overriding it. */
  lemma MakeEntryIsExtend(key: string, webStarter: Option<Block>)
    ensures EntryObject(MakeEntry(key, webStarter))
         == map[CategoryKey := DefaultCategory, NameKey := key, ValueKey := key] + BlockObject(webStarter)
  {
    match webStarter
    case None =>
      var e := MakeEntry(key, webStarter);
      FieldsAt(Some(e.category), Some(e.name), Some(e.value), e.sortLabel);
    case Some(b) =>
      ExtendFields(DefaultCategory, key, key, b.category, b.name, b.value, b.sortLabel);
  }

  /** Three defined defaults extended by four optional fields. */
  lemma ExtendFields(c: string, n: string, v: string, oc: Option<string>, on: Option<string>, ov: Option<string>, ol: Option<string>)
    ensures map[CategoryKey := c, NameKey := n, ValueKey := v] + Fields(oc, on, ov, ol)
         == Fields(Some(oc.GetOr(c)), Some(on.GetOr(n)), Some(ov.GetOr(v)), ol)
  {
    var l := map[CategoryKey := c, NameKey := n, ValueKey := v] + Fields(oc, on, ov, ol);
    var r := Fields(Some(oc.GetOr(c)), Some(on.GetOr(n)), Some(ov.GetOr(v)), ol);
    FieldsAt(oc, on, ov, ol);
    FieldsAt(Some(oc.GetOr(c)), Some(on.GetOr(n)), Some(ov.GetOr(v)), ol);
    forall k ensures (k in l <==> k in r) && (k in l ==> l[k] == r[k]) {
      match k
      case CategoryKey =>
      case NameKey =>
      case ValueKey =>
      case LabelKey =>
    }
    assert l.Keys == r.Keys;
  }

  /** Where each key of `Fields` comes from. */
  lemma FieldsAt(category: Option<string>, name: Option<string>, value: Option<string>, sortLabel: Option<string>)
    ensures var m := Fields(category, name, value, sortLabel);
      && (CategoryKey in m <==> category.Some?) && (category.Some? ==> m[CategoryKey] == category.value)
      && (NameKey in m <==> name.Some?) && (name.Some? ==> m[NameKey] == name.value)
      && (ValueKey in m <==> value.Some?) && (value.Some? ==> m[ValueKey] == value.value)
      && (LabelKey in m <==> sortLabel.Some?) && (sortLabel.Some? ==> m[LabelKey] == sortLabel.value)
  {
  }

  /** The `map` then `compact` steps: a qualifying generator gives its entry,
      any other gives `''`, which `compact` drops. */
  function Entries(metas: seq<Meta>): (es: seq<Entry>)
    ensures |es| <= |metas|
    decreases |metas|
  {
    if |metas| == 0 then []
    else
      var rest := Entries(metas[1..]);
      if Qualifies(metas[0].key) then [MakeEntry(metas[0].key, metas[0].webStarter)] + rest else rest
  }

  /** An entry exists for a generator iff its key qualifies, and entries keep the metadata order. */
  lemma {:induction false} EntriesIff(metas: seq<Meta>)
    ensures forall m :: m in metas && Qualifies(m.key) ==> MakeEntry(m.key, m.webStarter) in Entries(metas)
    ensures forall e :: e in Entries(metas) ==> exists m :: m in metas && Qualifies(m.key) && e == MakeEntry(m.key, m.webStarter)
    decreases |metas|
  {
    if |metas| > 0 {
      EntriesIff(metas[1..]);
      forall m | m in metas && Qualifies(m.key) ensures MakeEntry(m.key, m.webStarter) in Entries(metas) {
        if m != metas[0] {
          assert m in metas[1..];
        }
      }
    }
  }

  /** Entries of a concatenation are the concatenation of entries: order is kept. */
  lemma {:induction false} EntriesSplit(a: seq<Meta>, b: seq<Meta>)
    ensures Entries(a + b) == Entries(a) + Entries(b)
    decreases |a|
  {
    if |a| == 0 {
      assert a + b == b;
    } else {
      assert (a + b)[1..] == a[1..] + b;
      EntriesSplit(a[1..], b);
    }
  }
}

=== FILE: choices.dfy ===
/** The selection list of the add-on prompt (`sub_generators` in
    app/index.js): the sorted catalog with a category separator placed before
    the first entry and before every entry whose category differs from the
    one before it. */
module Choices {
  import opened Wrappers
  import opened Catalog
  import opened Sorting

  /** `new inquirer.Separator(category)` or a `{name, value}` choice. */
  datatype Choice = Separator(category: string) | Pick(name: string, value: string)

  function PickOf(e: Entry): Choice {
    Pick(e.name, e.value)
  }

  /** The `{name, value}` choices of the entries, in order. */
  function PicksOf(es: seq<Entry>): (r: seq<Choice>)
    ensures |r| == |es|
    decreases |es|
  {
    if |es| == 0 then [] else [PickOf(es[0])] + PicksOf(es[1..])
  }

  /** The i-th choice is the i-th entry's `{name, value}`. */
  lemma {:induction false} PicksOfAt(es: seq<Entry>)
    ensures forall i :: 0 <= i < |es| ==> PicksOf(es)[i] == PickOf(es[i])
    decreases |es|
  {
    if |es| > 0 {
      PicksOfAt(es[1..]);
      forall i | 0 < i < |es| ensures PicksOf(es)[i] == PickOf(es[i]) {
        assert PicksOf(es)[i] == PicksOf(es[1..])[i - 1];
      }
    }
  }

  /** The choices for `es` when the entry before them had category `prev`
      (None before the first entry): a separator whenever the category
      changes, then the entry's choice. */
  function ChoicesAfter(prev: Option<string>, es: seq<Entry>): seq<Choice>
    decreases |es|
  {
    if |es| == 0 then []
    else
      (if prev == Some(es[0].category) then [] else [Separator(es[0].category)])
        + [PickOf(es[0])] + ChoicesAfter(Some(es[0].category), es[1..])
  }

  /** The choices pushed for the whole catalog. */
  function ChoiceList(es: seq<Entry>): seq<Choice> {
    ChoicesAfter(None, es)
  }

  /** The category of the last entry of `es`, or `prev` when there is none. */
  function LastCategory(prev: Option<string>, es: seq<Entry>): Option<string> {
    if |es| == 0 then prev else Some(es[|es| - 1].category)
  }

  /** One more entry adds its separator, if its category changes, and its choice. */
  lemma {:induction false} ChoicesAfterSnoc(prev: Option<string>, es: seq<Entry>, e: Entry)
    ensures ChoicesAfter(prev, es + [e])
         == ChoicesAfter(prev, es)
            + (if LastCategory(prev, es) == Some(e.category) then [] else [Separator(e.category)])
            + [PickOf(e)]
    decreases |es|
  {
    if |es| > 0 {
      assert (es + [e])[1..] == es[1..] + [e];
      ChoicesAfterSnoc(Some(es[0].category), es[1..], e);
    }
  }

  /** The `plugin_vals.forEach` loop, appending to the list it is given:
      `sub_generators` is a module-level array that keeps what earlier runs
      pushed. */
  method AppendChoices(acc: seq<Choice>, vals: seq<Entry>) returns (out: seq<Choice>)
    ensures out == acc + ChoiceList(vals)
  {
    out := acc;
    var idx := 0;
    while idx < |vals|
      invariant 0 <= idx <= |vals|
      invariant out == acc + ChoiceList(vals[..idx])
    {
      var item := vals[idx];
      ChoicesAfterSnoc(None, vals[..idx], item);
      assert vals[..idx + 1] == vals[..idx] + [item];
      if idx == 0 || item.category != vals[idx - 1].category {
        out := out + [Separator(item.category)];
      }
      out := out + [Pick(item.name, item.value)];
      idx := idx + 1;
    }
    assert vals[..idx] == vals;
  }

  /** The choices with the separators removed. */
  function Picks(cs: seq<Choice>): (r: seq<Choice>)
    ensures forall c :: c in r ==> c.Pick?
    decreases |cs|
  {
    if |cs| == 0 then []
    else if cs[0].Separator? then Picks(cs[1..])
    else [cs[0]] + Picks(cs[1..])
  }

  lemma {:induction false} PicksAppend(a: seq<Choice>, b: seq<Choice>)
    ensures Picks(a + b) == Picks(a) + Picks(b)
    decreases |a|
  {
    if |a| == 0 {
      assert a + b == b;
    } else {
      assert (a + b)[1..] == a[1..] + b;
      PicksAppend(a[1..], b);
    }
  }

  /** Removing the separators leaves the `{name, value}` of every entry, in order. */
  lemma {:induction false} PicksOfChoices(prev: Option<string>, es: seq<Entry>)
    ensures Picks(ChoicesAfter(prev, es)) == PicksOf(es)
    decreases |es|
  {
    if |es| > 0 {
      var head := (if prev == Some(es[0].category) then [] else [Separator(es[0].category)]) + [PickOf(es[0])];
      PicksOfChoices(Some(es[0].category), es[1..]);
      PicksAppend(head, ChoicesAfter(Some(es[0].category), es[1..]));
      PicksAppend(if prev == Some(es[0].category) then [] else [Separator(es[0].category)], [PickOf(es[0])]);
    }
  }

  /** The maximal runs of equal category, in order. */
  function Runs(es: seq<Entry>): (rs: seq<seq<Entry>>)
    ensures |rs| == 0 <==> |es| == 0
    ensures |rs| > 0 ==> |rs[0]| > 0 && rs[0][0] == es[0]
    decreases |es|
  {
    if |es| == 0 then []
    else
      var rest := Runs(es[1..]);
      if |es| > 1 && es[1].category == es[0].category then [[es[0]] + rest[0]] + rest[1..]
      else [[es[0]]] + rest
  }

  /** An entry of the same category as the next joins that entry's run. */
  lemma RunsJoin(es: seq<Entry>)
    requires |es| > 1
    requires es[1].category == es[0].category
    ensures Runs(es)[0] == [es[0]] + Runs(es[1..])[0]
    ensures Runs(es)[1..] == Runs(es[1..])[1..]
  {
  }

  /** An entry whose category differs from the next one's is a run of its own. */
  lemma RunsOpen(es: seq<Entry>)
    requires |es| > 0
    requires |es| > 1 ==> es[1].category != es[0].category
    ensures Runs(es)[0] == [es[0]]
    ensures Runs(es)[1..] == Runs(es[1..])
  {
  }

  function Flatten(rs: seq<seq<Entry>>): seq<Entry>
    decreases |rs|
  {
    if |rs| == 0 then [] else rs[0] + Flatten(rs[1..])
  }

  /** Concatenating the runs gives back the entries. */
  lemma {:induction false} RunsFlatten(es: seq<Entry>)
    ensures Flatten(Runs(es)) == es
    decreases |es|
  {
    if |es| > 1 && es[1].category == es[0].category {
      RunsFlatten(es[1..]);
      FlattenJoin(es);
    } else if |es| > 0 {
      RunsFlatten(es[1..]);
      FlattenOpen(es);
    }
  }

  lemma FlattenJoin(es: seq<Entry>)
    requires |es| > 1 && es[1].category == es[0].category
    requires Flatten(Runs(es[1..])) == es[1..]
    ensures Flatten(Runs(es)) == es
  {
    var rest: seq<seq<Entry>> := Runs(es[1..]);
    var rs: seq<seq<Entry>> := Runs(es);
    RunsJoin(es);
    assert Flatten(rs) == rs[0] + Flatten(rs[1..]);
    assert |rest| > 0;
    assert Flatten(rest) == rest[0] + Flatten(rest[1..]);
    EntryAssoc(es[0], rest[0], Flatten(rest[1..]));
    assert es == [es[0]] + es[1..];
  }

  lemma EntryAssoc(a: Entry, xs: seq<Entry>, ys: seq<Entry>)
    ensures ([a] + xs) + ys == [a] + (xs + ys)
  {
  }

  lemma FlattenOpen(es: seq<Entry>)
    requires |es| > 0
    requires |es| > 1 ==> es[1].category != es[0].category
    requires Flatten(Runs(es[1..])) == es[1..]
    ensures Flatten(Runs(es)) == es
  {
    var rs: seq<seq<Entry>> := Runs(es);
    RunsOpen(es);
    assert Flatten(rs) == rs[0] + Flatten(rs[1..]);
    assert es == [es[0]] + es[1..];
  }

  /** A non-empty run whose entries share one category. */
  ghost predicate Uniform(run: seq<Entry>) {
    |run| > 0 && forall k :: 0 <= k < |run| ==> run[k].category == run[0].category
  }

  /** Every run is non-empty and of one category. */
  lemma {:induction false} RunsUniform(es: seq<Entry>)
    ensures forall k :: 0 <= k < |Runs(es)| ==> Uniform(Runs(es)[k])
    decreases |es|
  {
    if |es| > 0 {
      var rest: seq<seq<Entry>> := Runs(es[1..]);
      var rs: seq<seq<Entry>> := Runs(es);
      RunsUniform(es[1..]);
      if |es| > 1 && es[1].category == es[0].category {
        RunsJoin(es);
        assert Uniform(rest[0]);
        assert Uniform(rs[0]) by {
          forall k | 0 <= k < |rs[0]| ensures rs[0][k].category == rs[0][0].category {
            if k > 0 {
              assert rs[0][k] == rest[0][k - 1];
            }
          }
        }
        forall k | 0 < k < |rs| ensures Uniform(rs[k]) {
          assert rs[k] == rs[1..][k - 1] == rest[1..][k - 1];
        }
      } else {
        RunsOpen(es);
        assert Uniform(rs[0]);
        forall k | 0 < k < |rs| ensures Uniform(rs[k]) {
          assert rs[k] == rs[1..][k - 1] == rest[k - 1];
        }
      }
    }
  }

  /** Run `k` and the run before it are non-empty and differ in category. */
  ghost predicate DiffersFromPrevious(rs: seq<seq<Entry>>, k: int)
    requires 0 < k < |rs|
  {
    |rs[k - 1]| > 0 && |rs[k]| > 0 && rs[k - 1][0].category != rs[k][0].category
  }

  /** Neighbouring runs differ in category. */
  ghost predicate Maximal(rs: seq<seq<Entry>>) {
    forall k :: 0 < k < |rs| ==> DiffersFromPrevious(rs, k)
  }

  /** Neighbouring runs differ in category, so no run could be longer. */
  lemma {:induction false} RunsMaximal(es: seq<Entry>)
    ensures Maximal(Runs(es))
    decreases |es|
  {
    if |es| > 1 {
      RunsMaximal(es[1..]);
      if es[1].category == es[0].category {
        MaximalJoin(es);
      } else {
        MaximalOpen(es);
      }
    } else if |es| == 1 {
      RunsOpen(es);
    }
  }

  lemma MaximalJoin(es: seq<Entry>)
    requires |es| > 1
    requires es[1].category == es[0].category
    requires Maximal(Runs(es[1..]))
    ensures Maximal(Runs(es))
  {
    var rest: seq<seq<Entry>> := Runs(es[1..]);
    var rs: seq<seq<Entry>> := Runs(es);
    RunsJoin(es);
    forall k | 0 < k < |rs| ensures DiffersFromPrevious(rs, k) {
      assert rs[k] == rs[1..][k - 1] == rest[k];
      if k > 1 {
        assert rs[k - 1] == rs[1..][k - 2] == rest[k - 1];
        assert DiffersFromPrevious(rest, k);
      } else {
        assert DiffersFromPrevious(rest, 1);
        assert rs[0][0] == es[0];
        assert rest[0][0] == es[1];
      }
    }
  }

  lemma MaximalOpen(es: seq<Entry>)
    requires |es| > 1
    requires es[1].category != es[0].category
    requires Maximal(Runs(es[1..]))
    ensures Maximal(Runs(es))
  {
    var rest: seq<seq<Entry>> := Runs(es[1..]);
    var rs: seq<seq<Entry>> := Runs(es);
    RunsOpen(es);
    forall k | 0 < k < |rs| ensures DiffersFromPrevious(rs, k) {
      assert rs[k] == rs[1..][k - 1] == rest[k - 1];
      if k > 1 {
        assert rs[k - 1] == rs[1..][k - 2] == rest[k - 2];
        assert DiffersFromPrevious(rest, k - 1);
      } else {
        assert rs[0] == [es[0]];
        assert rest[0][0] == es[1..][0] == es[1];
      }
    }
  }

  /** A run rendered: its separator, then its choices. */
  function RenderRun(run: seq<Entry>): seq<Choice> {
    if |run| == 0 then [] else [Separator(run[0].category)] + PicksOf(run)
  }

  function RenderRuns(rs: seq<seq<Entry>>): seq<Choice>
    decreases |rs|
  {
    if |rs| == 0 then [] else RenderRun(rs[0]) + RenderRuns(rs[1..])
  }

  /** An entry of the category before it gets no separator. */
  lemma ChoicesSame(es: seq<Entry>)
    requires |es| > 0
    ensures ChoicesAfter(Some(es[0].category), es) == [PickOf(es[0])] + ChoicesAfter(Some(es[0].category), es[1..])
  {
  }

  /** An entry whose category differs from the one before gets a separator. */
  lemma ChoicesChange(prev: Option<string>, es: seq<Entry>)
    requires |es| > 0
    requires prev != Some(es[0].category)
    ensures ChoicesAfter(prev, es) == [Separator(es[0].category)] + ChoicesAfter(Some(es[0].category), es)
  {
    ChoicesSame(es);
  }

  /** The choices from the start of a run: the run's choices, then the
      remaining runs rendered. */
  ghost predicate WithinRun(es: seq<Entry>)
    requires |es| > 0
  {
    ChoicesAfter(Some(es[0].category), es) == PicksOf(Runs(es)[0]) + RenderRuns(Runs(es)[1..])
  }

  /** Inside a run the choices follow one another without separators. */
  lemma {:induction false} ChoicesWithinRun(es: seq<Entry>)
    requires |es| > 0
    ensures WithinRun(es)
    decreases |es|
  {
    if |es| > 1 {
      ChoicesWithinRun(es[1..]);
      if es[1].category == es[0].category {
        WithinRunJoin(es);
      } else {
        WithinRunOpen(es);
      }
    } else {
      WithinRunLast(es);
    }
  }

  lemma WithinRunJoin(es: seq<Entry>)
    requires |es| > 1
    requires es[1].category == es[0].category
    requires WithinRun(es[1..])
    ensures WithinRun(es)
  {
    var tail := es[1..];
    var rest := Runs(tail);
    ChoicesSame(es);
    assert Some(es[0].category) == Some(tail[0].category);
    RunsJoin(es);
    JoinedPicks(es[0], rest[0]);
    ConsAssoc(PickOf(es[0]), PicksOf(rest[0]), RenderRuns(rest[1..]));
  }

  lemma ConsAssoc(a: Choice, xs: seq<Choice>, ys: seq<Choice>)
    ensures [a] + (xs + ys) == ([a] + xs) + ys
  {
  }

  lemma WithinRunOpen(es: seq<Entry>)
    requires |es| > 1
    requires es[1].category != es[0].category
    requires WithinRun(es[1..])
    ensures WithinRun(es)
  {
    var tail := es[1..];
    var rest := Runs(tail);
    var first := Separator(tail[0].category);
    ChoicesSame(es);
    RunsOpen(es);
    ChoicesChange(Some(es[0].category), tail);
    SingletonPicks(es[0]);
    RenderFirstRun(tail);
    PrependAssoc(PickOf(es[0]), first, PicksOf(rest[0]), RenderRuns(rest[1..]));
  }

  lemma PrependAssoc(a: Choice, b: Choice, xs: seq<Choice>, ys: seq<Choice>)
    ensures [a] + ([b] + (xs + ys)) == [a] + ([b] + xs + ys)
  {
  }

  lemma WithinRunLast(es: seq<Entry>)
    requires |es| == 1
    ensures WithinRun(es)
  {
    ChoicesSame(es);
    RunsOpen(es);
    SingletonPicks(es[0]);
  }

  lemma JoinedPicks(e: Entry, run: seq<Entry>)
    ensures PicksOf([e] + run) == [PickOf(e)] + PicksOf(run)
  {
    assert ([e] + run)[1..] == run;
  }

  lemma SingletonPicks(e: Entry)
    ensures PicksOf([e]) == [PickOf(e)]
  {
  }

  /** The first run's rendering is its separator, then the choices. */
  lemma RenderFirstRun(es: seq<Entry>)
    requires |es| > 0
    ensures RenderRuns(Runs(es)) == [Separator(es[0].category)] + PicksOf(Runs(es)[0]) + RenderRuns(Runs(es)[1..])
  {
    var rs := Runs(es);
    assert RenderRuns(rs) == RenderRun(rs[0]) + RenderRuns(rs[1..]);
  }

  /** The choice list is each maximal same-category run preceded by one
      separator naming its category, and nothing else. */
  lemma ChoicesByRuns(es: seq<Entry>)
    ensures ChoiceList(es) == RenderRuns(Runs(es))
  {
    if |es| > 0 {
      ChoicesWithinRun(es);
      ChoicesChange(None, es);
      RenderFirstRun(es);
    }
  }

  /** The whole catalog pipeline: filter, compact, two sorts, separators. */
  function BuildChoices(metas: seq<Meta>): seq<Choice> {
    ChoiceList(CatalogOrder(Entries(metas)))
  }

  /** Removing the separators leaves every qualifying generator's choice in
      catalog order, and the separators open exactly the category runs of
      the sorted catalog. */
  lemma BuildChoicesSpec(metas: seq<Meta>)
    ensures var sorted := CatalogOrder(Entries(metas));
      && multiset(sorted) == multiset(Entries(metas))
      && Picks(BuildChoices(metas)) == PicksOf(sorted)
      && BuildChoices(metas) == RenderRuns(Runs(sorted))
      && Flatten(Runs(sorted)) == sorted
      && (forall k :: 0 <= k < |Runs(sorted)| ==> Uniform(Runs(sorted)[k]))
      && Maximal(Runs(sorted))
  {
    var sorted := CatalogOrder(Entries(metas));
    PicksOfChoices(None, sorted);
    ChoicesByRuns(sorted);
    RunsFlatten(sorted);
    RunsUniform(sorted);
    RunsMaximal(sorted);
  }
}

=== FILE: discovery.dfy ===
/** Local add-on registration in `initializing.plugins` of app/index.js:
    the lookup patterns built from the environment's lookup suffixes and the
    locally installed generator modules, and the guard that decides which
    candidate entry points are registered.

    Path joining, directory globbing, symlink resolution and the
    environment's namespace computation are outside the model: a pattern is
    the pair it is joined from, a candidate carries its nominal and resolved
    paths, and the namespace computation is a parameter. */
module Discovery {
  import opened Wrappers

  /** A pattern: the module directory and the lookup suffix joined to it. */
  datatype Pattern = Pattern(modulePath: string, lookup: string)

  /** Every module directory joined with every lookup suffix, in the order
      of the nested `forEach`: lookup-major, modules within a lookup. */
  function Patterns(lookups: seq<string>, modules: seq<string>): (ps: seq<Pattern>)
    ensures |ps| == |lookups| * |modules|
    decreases |lookups|
  {
    if |lookups| == 0 then []
    else
      seq(|modules|, j requires 0 <= j < |modules| => Pattern(modules[j], lookups[0]))
        + Patterns(lookups[1..], modules)
  }

  /** Pattern `i * |modules| + j` joins module `j` to lookup `i`. */
  lemma {:induction false} PatternAt(lookups: seq<string>, modules: seq<string>, i: nat, j: nat)
    requires i < |lookups| && j < |modules|
    ensures i * |modules| + j < |Patterns(lookups, modules)|
    ensures Patterns(lookups, modules)[i * |modules| + j] == Pattern(modules[j], lookups[i])
    decreases i
  {
    var m := |modules|;
    var head := seq(m, k requires 0 <= k < m => Pattern(modules[k], lookups[0]));
    var rest := Patterns(lookups[1..], modules);
    assert Patterns(lookups, modules) == head + rest;
    if i == 0 {
      assert i * m + j == j;
    } else {
      PatternAt(lookups[1..], modules, i - 1, j);
      MulStep(i, m);
      assert lookups[1..][i - 1] == lookups[i];
    }
  }

  lemma MulStep(i: nat, m: nat)
    requires i > 0
    ensures i * m == m + (i - 1) * m
  {
  }

  /** An entry point found under a pattern: its nominal path
      (`generatorReference`) and its symlink-resolved path (`realPath`). */
  datatype Candidate = Candidate(reference: string, realPath: string)

  /** A call `env.register(realPath, namespace)`; `namespace` None is `undefined`. */
  datatype Registration = Registration(path: string, namespace: Option<string>)

  /** The namespace is only computed for a candidate reached through a link. */
  function NamespaceOf(c: Candidate, namespaceFor: string -> string): (ns: Option<string>)
    ensures ns.Some? <==> c.realPath != c.reference
    ensures ns.Some? ==> ns.value == namespaceFor(c.reference)
  {
    if c.realPath != c.reference then Some(namespaceFor(c.reference)) else None
  }

  /** `-1 === _.indexOf(namespaces, namespace)`: the snapshot holds strings
      only, so an undefined namespace is never found in it. */
  predicate Admitted(ns: Option<string>, known: seq<string>) {
    ns.None? || ns.value !in known
  }

  function RegistrationOf(c: Candidate, namespaceFor: string -> string): Registration {
    Registration(c.realPath, NamespaceOf(c, namespaceFor))
  }

  /** The registrations the loop makes, in candidate order; `known` is the
      snapshot `env.namespaces()` taken before the loop and never refreshed. */
  function Registrations(known: seq<string>, candidates: seq<Candidate>, namespaceFor: string -> string): (rs: seq<Registration>)
    ensures |rs| <= |candidates|
    decreases |candidates|
  {
    if |candidates| == 0 then []
    else
      var c := candidates[0];
      var rest := Registrations(known, candidates[1..], namespaceFor);
      if Admitted(NamespaceOf(c, namespaceFor), known) then [RegistrationOf(c, namespaceFor)] + rest else rest
  }

  /** The registration loop, one candidate at a time in order. */
  method Register(known: seq<string>, candidates: seq<Candidate>, namespaceFor: string -> string)
    returns (rs: seq<Registration>)
    ensures rs == Registrations(known, candidates, namespaceFor)
  {
    rs := [];
    var i := 0;
    while i < |candidates|
      invariant 0 <= i <= |candidates|
      invariant rs == Registrations(known, candidates[..i], namespaceFor)
    {
      var c := candidates[i];
      var ns: Option<string> := None;
      if c.realPath != c.reference {
        ns := Some(namespaceFor(c.reference));
      }
      RegistrationsSplit(known, candidates[..i], [c], namespaceFor);
      assert candidates[..i + 1] == candidates[..i] + [c];
      if ns.None? || ns.value !in known {
        rs := rs + [Registration(c.realPath, ns)];
      }
      i := i + 1;
    }
    assert candidates[..i] == candidates;
  }

  /** A candidate is registered iff its namespace is undefined or missing from the snapshot. */
  lemma {:induction false} RegisteredIff(known: seq<string>, candidates: seq<Candidate>, namespaceFor: string -> string, c: Candidate)
    requires c in candidates
    ensures RegistrationOf(c, namespaceFor) in Registrations(known, candidates, namespaceFor)
        <==> Admitted(NamespaceOf(c, namespaceFor), known)
    decreases |candidates|
  {
    var rs := Registrations(known, candidates, namespaceFor);
    if Admitted(NamespaceOf(c, namespaceFor), known) {
      if candidates[0] != c {
        RegisteredIff(known, candidates[1..], namespaceFor, c);
      }
    } else {
      NothingUnadmitted(known, candidates, namespaceFor);
    }
  }

  /** Every registration carries an admitted namespace and comes from some candidate. */
  lemma {:induction false} NothingUnadmitted(known: seq<string>, candidates: seq<Candidate>, namespaceFor: string -> string)
    ensures forall r :: r in Registrations(known, candidates, namespaceFor) ==>
              Admitted(r.namespace, known) && exists c :: c in candidates && r == RegistrationOf(c, namespaceFor)
    decreases |candidates|
  {
    if |candidates| > 0 {
      NothingUnadmitted(known, candidates[1..], namespaceFor);
    }
  }

  /** The snapshot is not refreshed: what the later candidates register does
      not depend on what the earlier ones registered. */
  lemma {:induction false} RegistrationsSplit(known: seq<string>, first: seq<Candidate>, second: seq<Candidate>, namespaceFor: string -> string)
    ensures Registrations(known, first + second, namespaceFor)
         == Registrations(known, first, namespaceFor) + Registrations(known, second, namespaceFor)
    decreases |first|
  {
    if |first| > 0 {
      assert (first + second)[1..] == first[1..] + second;
      RegistrationsSplit(known, first[1..], second, namespaceFor);
    } else {
      assert first + second == second;
    }
  }

  /** Two linked candidates with the same fresh namespace are both registered. */
  lemma DuplicateNamespaceRegisteredTwice(namespaceFor: string -> string)
    requires namespaceFor("a/index.js") == "x:web-starter" && namespaceFor("b/index.js") == "x:web-starter"
    ensures |Registrations([], [Candidate("a/index.js", "p/index.js"), Candidate("b/index.js", "q/index.js")], namespaceFor)| == 2
  {
  }

  /** A candidate reached directly is registered even when its namespace is already known. */
  lemma DirectCandidateAlwaysRegistered(known: seq<string>, path: string, namespaceFor: string -> string)
    ensures Registrations(known, [Candidate(path, path)], namespaceFor) == [Registration(path, None)]
  {
  }
}

=== FILE: drupal.dfy ===
/** The Drupal platform configuration (generators/app/configs/drupal/index.js):
    constant defaults, an always-empty npm package list, and four questions
    whose `when` predicates read only the answers given so far. */
module DrupalConfig {
  import opened Wrappers
  import opened Prompts

  /** The defaults the configuration offers. */
  function Defaults(): (d: Record)
    ensures d.Keys == {"features", "cmi", "solr", "drupal_theme"}
  {
    map["features" := Bool(true), "cmi" := Bool(false), "solr" := Bool(true), "drupal_theme" := Str("gesso")]
  }

  /** `getNpmPackages(config)`: no package, whatever the configuration. */
  function NpmPackages(config: Record): (ps: seq<string>)
    ensures |ps| == 0
  {
    []
  }

  /** When a question is asked: the three module questions on an advanced
      Drupal install, the theme question on a Drupal site using Compass. */
  datatype Gate = AdvancedDrupal | CompassDrupal

  /** A question of this configuration and its `when` predicate. */
  datatype Prompt = Prompt(question: Question, gate: Gate)

  /** The `when` predicate of a gate, applied to the answers so far: the
      result of `platform == 'drupal' && ...`, taken for its truthiness. */
  predicate Asked(gate: Gate, answers: Record) {
    match gate
    case AdvancedDrupal =>
      LooselyEquals(Field(answers, "platform"), "drupal") && LooselyEquals(Field(answers, "install_type"), "advanced")
    case CompassDrupal =>
      LooselyEquals(Field(answers, "platform"), "drupal") && Truthy(Field(answers, "drupal_use_compass"))
  }

  /** `getPrompts(config)`. */
  function GetPrompts(config: Record): (ps: seq<Prompt>)
    ensures |ps| == 4
    ensures forall i :: 0 <= i < |ps| ==> ps[i].question.default == Field(config, ps[i].question.name)
  {
    [Prompt(Question(Confirm, "features", "Does it use the Features module?", Field(config, "features")), AdvancedDrupal),
     Prompt(Question(Confirm, "cmi", "Does it use the Configuration module?", Field(config, "cmi")), AdvancedDrupal),
     Prompt(Question(Confirm, "solr", "Does it use Solr?", Field(config, "solr")), AdvancedDrupal),
     Prompt(Question(Input, "drupal_theme", "Theme name", Field(config, "drupal_theme")), CompassDrupal)]
  }

  /** The questions come in the order features, cmi, solr, drupal_theme,
      the first three yes/no and the last free text. */
  lemma PromptOrder(config: Record)
    ensures var ps := GetPrompts(config);
      && [ps[0].question.name, ps[1].question.name, ps[2].question.name, ps[3].question.name]
         == ["features", "cmi", "solr", "drupal_theme"]
      && ps[0].question.kind == ps[1].question.kind == ps[2].question.kind == Confirm
      && ps[3].question.kind == Input
  {
  }

  /** Fed the configuration's own defaults, the questions default to yes,
      no, yes and `gesso`. */
  lemma DefaultsFeedPrompts()
    ensures var ps := GetPrompts(Defaults());
      && ps[0].question.default == Some(Bool(true))
      && ps[1].question.default == Some(Bool(false))
      && ps[2].question.default == Some(Bool(true))
      && ps[3].question.default == Some(Str("gesso"))
  {
  }

  /** The features, cmi and solr questions are asked exactly when the
      platform answer is `drupal` and the install type answer is `advanced`,
      each typed as text or given as the single selected value. */
  lemma ModuleQuestionsAsked(config: Record, answers: Record, i: nat)
    requires i < 3
    ensures Asked(GetPrompts(config)[i].gate, answers)
        <==> AnswerIs(Field(answers, "platform"), "drupal") && AnswerIs(Field(answers, "install_type"), "advanced")
  {
    LooselyEqualsWord(Field(answers, "platform"), "drupal");
    LooselyEqualsWord(Field(answers, "install_type"), "advanced");
  }

  /** Unless the platform answer is `drupal`, no question is asked: an
      absent, yes/no, other or multi-item platform answer opens none. */
  lemma NothingAskedWithoutPlatform(config: Record, answers: Record, i: nat)
    requires i < 4
    requires !AnswerIs(Field(answers, "platform"), "drupal")
    ensures !Asked(GetPrompts(config)[i].gate, answers)
  {
    LooselyEqualsWord(Field(answers, "platform"), "drupal");
  }

  /** The theme question is asked exactly when the platform answer is
      `drupal` and the Compass answer is truthy. */
  lemma ThemeQuestionAsked(config: Record, answers: Record)
    ensures Asked(GetPrompts(config)[3].gate, answers)
        <==> AnswerIs(Field(answers, "platform"), "drupal") && Truthy(Field(answers, "drupal_use_compass"))
  {
    LooselyEqualsWord(Field(answers, "platform"), "drupal");
  }

  /** The `when` predicates ignore the configuration: two configurations
      give the same gates, so the same questions are asked. */
  lemma GatesIgnoreConfig(c1: Record, c2: Record, answers: Record, i: nat)
    requires i < 4
    ensures GetPrompts(c1)[i].gate == GetPrompts(c2)[i].gate
    ensures Asked(GetPrompts(c1)[i].gate, answers) == Asked(GetPrompts(c2)[i].gate, answers)
  {
  }
}

=== FILE: prompts.dfy ===
/** Answer values and prompt descriptions shared by the main generator and
    its platform configurations, with the parts of JavaScript's loose
    equality and truthiness that their `when` predicates rely on. */
module Prompts {
  import opened Wrappers
  import opened Text
  import opened Choices

  /** The values an answers or configuration record holds: text from an
      input prompt, a flag from a confirm prompt, the selection of a
      checkbox prompt, or a nested object such as `package_file`. */
  datatype Value = Str(text: string) | Bool(flag: bool) | Strs(items: seq<string>) | Obj(fields: map<string, Value>)

  /** A plain JavaScript object of answers or configuration. */
  type Record = map<string, Value>

  /** `record.key`: None stands for `undefined`. */
  function Field(r: Record, key: string): (v: Option<Value>)
    ensures v.Some? <==> key in r
    ensures v.Some? ==> v.value == r[key]
  {
    if key in r then Some(r[key]) else None
  }

  /** JavaScript truthiness: the empty string, `false` and `undefined` are
      falsy; every array and object, even an empty one, is truthy. */
  predicate Truthy(v: Option<Value>) {
    match v
    case None => false
    case Some(Str(s)) => s != ""
    case Some(Bool(b)) => b
    case Some(Strs(_)) => true
    case Some(Obj(_)) => true
  }

  /** A lower-case word such as `drupal`: never a numeric literal, so a
      boolean is never loosely equal to it. */
  predicate Word(w: string) {
    |w| > 0 && forall i :: 0 <= i < |w| ==> 'a' <= w[i] <= 'z'
  }

  /** `v == w` for a word literal `w`: `undefined` equals no string, a
      boolean is compared as a number (and a word is `NaN`), an array is
      compared through its comma-joined text, any other object through
      the text `[object Object]`. */
  predicate LooselyEquals(v: Option<Value>, w: string)
    requires Word(w)
  {
    match v
    case None => false
    case Some(Str(s)) => s == w
    case Some(Bool(_)) => false
    case Some(Strs(items)) => Join(items, ",") == w
    case Some(Obj(_)) => "[object Object]" == w
  }

  /** A word is loosely equal to a string exactly when they are the same
      text, and to a one-element selection holding exactly that text. */
  lemma LooselyEqualsText(v: Option<Value>, w: string)
    requires Word(w)
    ensures v.Some? && v.value.Str? ==> (LooselyEquals(v, w) <==> v.value.text == w)
    ensures v.Some? && v.value.Strs? && |v.value.items| == 1 ==> (LooselyEquals(v, w) <==> v.value.items[0] == w)
    ensures v.None? || (v.Some? && (v.value.Bool? || v.value.Obj?)) ==> !LooselyEquals(v, w)
  {
    if v.Some? && v.value.Obj? {
      assert "[object Object]"[0] == '[';
    }
  }

  /** The answer is the word `w`: typed as text, or as the one selected item. */
  predicate AnswerIs(v: Option<Value>, w: string) {
    v == Some(Str(w)) || v == Some(Strs([w]))
  }

  /** Exactly two answers are loosely equal to a word: the word itself and a
      selection of that word alone. Empty and longer selections, booleans,
      objects and `undefined` never are. */
  lemma LooselyEqualsWord(v: Option<Value>, w: string)
    requires Word(w)
    ensures LooselyEquals(v, w) <==> AnswerIs(v, w)
  {
    if v.Some? && v.value.Obj? {
      assert "[object Object]"[0] == '[';
    }
    if v.Some? && v.value.Strs? {
      var items := v.value.items;
      if |items| >= 2 {
        var j := Join(items, ",");
        assert j == items[0] + "," + Join(items[1..], ",");
        assert j[|items[0]|] == ',';
        assert ',' in j;
        assert ',' !in w;
      } else if |items| == 1 {
        assert items == [items[0]];
      }
    }
  }

  /** The prompt kinds used: free text, yes/no, and a multiple choice over a
      list of choices. */
  datatype Kind = Input | Confirm | Checkbox(choices: seq<Choice>)

  /** One question: its kind, the answer key it fills, its message and its
      default (None when the default expression is `undefined`). */
  datatype Question = Question(kind: Kind, name: string, message: string, default: Option<Value>)
}

=== FILE: registry.dfy ===
/** The two name-to-value stores shared by every add-on of a run (`plugins`
    and `devDependencies` in app/index.js), the writes add-ons make to them,
    and the rendering of the dependency store into the package manifest.

    A store is a sequence of (name, value) pairs in insertion order, which is
    the enumeration order of a JavaScript object with non-numeric keys:
    assigning to a name already present keeps its position and replaces the
    value, assigning a new name appends it. */
module Registry {
  import opened Wrappers
  import opened Text

  datatype Store<V> = Store(pairs: seq<(string, V)>)

  function EmptyStore<V>(): Store<V> {
    Store([])
  }

  /** The names of a store in enumeration order. */
  function Names<V>(s: Store<V>): (ns: seq<string>)
    ensures |ns| == |s.pairs|
    ensures forall i :: 0 <= i < |ns| ==> ns[i] == s.pairs[i].0
  {
    seq(|s.pairs|, i requires 0 <= i < |s.pairs| => s.pairs[i].0)
  }

  /** No name occurs twice. */
  ghost predicate Valid<V>(s: Store<V>) {
    forall i, j :: 0 <= i < j < |s.pairs| ==> s.pairs[i].0 != s.pairs[j].0
  }

  function Lookup<V>(pairs: seq<(string, V)>, name: string): (r: Option<V>)
    ensures r.None? <==> forall i :: 0 <= i < |pairs| ==> pairs[i].0 != name
    ensures r.Some? ==> exists i :: 0 <= i < |pairs| && pairs[i] == (name, r.value)
  {
    if |pairs| == 0 then None
    else if pairs[0].0 == name then Some(pairs[0].1)
    else
      var r := Lookup(pairs[1..], name);
      assert forall i :: 1 <= i < |pairs| ==> pairs[i] == pairs[1..][i - 1];
      r
  }

  /** Replaces the value of every pair named `name`, leaving order and names alone. */
  function Replace<V>(pairs: seq<(string, V)>, name: string, value: V): (r: seq<(string, V)>)
    ensures |r| == |pairs|
    decreases |pairs|
  {
    if |pairs| == 0 then []
    else
      [(pairs[0].0, if pairs[0].0 == name then value else pairs[0].1)] + Replace(pairs[1..], name, value)
  }

  /** Replacing keeps every name in place and changes exactly the values of `name`. */
  lemma {:induction false} ReplaceShape<V>(pairs: seq<(string, V)>, name: string, value: V)
    ensures forall i :: 0 <= i < |pairs| ==> Replace(pairs, name, value)[i].0 == pairs[i].0
    ensures forall i :: 0 <= i < |pairs| ==>
              Replace(pairs, name, value)[i].1 == (if pairs[i].0 == name then value else pairs[i].1)
    decreases |pairs|
  {
    if |pairs| > 0 {
      ReplaceShape(pairs[1..], name, value);
      var r := Replace(pairs, name, value);
      forall i | 0 < i < |pairs|
        ensures r[i] == Replace(pairs[1..], name, value)[i - 1] && pairs[i] == pairs[1..][i - 1]
      {
      }
    }
  }

  /** `getPlugin(name)` / `getDevDependency(name)`: the stored value, or None
      (JavaScript `null`) for a name never added. */
  function Get<V>(s: Store<V>, name: string): (r: Option<V>)
    ensures r.None? <==> name !in Names(s)
    ensures r.Some? ==> (name, r.value) in s.pairs
  {
    assert name in Names(s) <==> exists i :: 0 <= i < |s.pairs| && s.pairs[i].0 == name;
    Lookup(s.pairs, name)
  }

  /** The pairs after `plugins[name] = value`: replaced in place when the
      name is present, appended otherwise. */
  function Assign<V>(pairs: seq<(string, V)>, name: string, value: V): seq<(string, V)> {
    if exists i :: 0 <= i < |pairs| && pairs[i].0 == name then Replace(pairs, name, value)
    else pairs + [(name, value)]
  }

  /** `plugins[name] = value` / `devDependencies[name] = value`. */
  function Add<V>(s: Store<V>, name: string, value: V): (r: Store<V>)
    ensures Get(r, name) == Some(value)
    ensures forall other :: other != name ==> Get(r, other) == Get(s, other)
    ensures Names(r) == if name in Names(s) then Names(s) else Names(s) + [name]
    ensures Valid(s) ==> Valid(r)
  {
    AssignFacts(s, name, value);
    Store(Assign(s.pairs, name, value))
  }

  lemma AssignFacts<V>(s: Store<V>, name: string, value: V)
    ensures var r := Store(Assign(s.pairs, name, value));
      && Get(r, name) == Some(value)
      && (forall other :: other != name ==> Get(r, other) == Get(s, other))
      && Names(r) == (if name in Names(s) then Names(s) else Names(s) + [name])
      && (Valid(s) ==> Valid(r))
  {
    assert name in Names(s) <==> exists i :: 0 <= i < |s.pairs| && s.pairs[i].0 == name;
    if name in Names(s) {
      AssignPresent(s, name, value);
    } else {
      AssignAbsent(s, name, value);
    }
  }

  lemma AssignPresent<V>(s: Store<V>, name: string, value: V)
    requires exists i :: 0 <= i < |s.pairs| && s.pairs[i].0 == name
    ensures var r := Store(Replace(s.pairs, name, value));
      && Get(r, name) == Some(value)
      && (forall other :: other != name ==> Get(r, other) == Get(s, other))
      && Names(r) == Names(s)
      && (Valid(s) ==> Valid(r))
  {
    var r := Store(Replace(s.pairs, name, value));
    ReplaceShape(s.pairs, name, value);
    ReplaceSetsValue(s.pairs, name, value);
    forall other | other != name ensures Get(r, other) == Get(s, other) {
      ReplaceKeepsOthers(s.pairs, name, value, other);
    }
  }

  lemma AssignAbsent<V>(s: Store<V>, name: string, value: V)
    requires forall i :: 0 <= i < |s.pairs| ==> s.pairs[i].0 != name
    ensures var r := Store(s.pairs + [(name, value)]);
      && Get(r, name) == Some(value)
      && (forall other :: other != name ==> Get(r, other) == Get(s, other))
      && Names(r) == Names(s) + [name]
      && (Valid(s) ==> Valid(r))
  {
    AppendLookup(s.pairs, name, value);
  }

  lemma {:induction false} ReplaceKeepsOthers<V>(pairs: seq<(string, V)>, name: string, value: V, other: string)
    requires other != name
    ensures Lookup(Replace(pairs, name, value), other) == Lookup(pairs, other)
    decreases |pairs|
  {
    if |pairs| > 0 {
      ReplaceKeepsOthers(pairs[1..], name, value, other);
      assert Replace(pairs, name, value)[1..] == Replace(pairs[1..], name, value);
    }
  }

  lemma {:induction false} ReplaceSetsValue<V>(pairs: seq<(string, V)>, name: string, value: V)
    requires exists i :: 0 <= i < |pairs| && pairs[i].0 == name
    ensures Lookup(Replace(pairs, name, value), name) == Some(value)
    decreases |pairs|
  {
    if pairs[0].0 != name {
      var i :| 0 <= i < |pairs| && pairs[i].0 == name;
      assert pairs[1..][i - 1].0 == name;
      ReplaceSetsValue(pairs[1..], name, value);
      assert Replace(pairs, name, value)[1..] == Replace(pairs[1..], name, value);
    }
  }

  lemma {:induction false} AppendLookup<V>(pairs: seq<(string, V)>, name: string, value: V)
    requires forall i :: 0 <= i < |pairs| ==> pairs[i].0 != name
    ensures Lookup(pairs + [(name, value)], name) == Some(value)
    ensures forall other :: other != name ==> Lookup(pairs + [(name, value)], other) == Lookup(pairs, other)
    decreases |pairs|
  {
    if |pairs| > 0 {
      assert (pairs + [(name, value)])[1..] == pairs[1..] + [(name, value)];
      AppendLookup(pairs[1..], name, value);
    }
  }

  /** Reference meaning of a store: a finite map from name to value. */
  function ToMap<V>(pairs: seq<(string, V)>): map<string, V>
    decreases |pairs|
  {
    if |pairs| == 0 then map[] else ToMap(pairs[1..])[pairs[0].0 := pairs[0].1]
  }

  /** `Get` agrees with the map meaning of the store. */
  lemma {:induction false} GetIsMapLookup<V>(s: Store<V>, name: string)
    ensures Get(s, name) == (if name in ToMap(s.pairs) then Some(ToMap(s.pairs)[name]) else None)
    decreases |s.pairs|
  {
    if |s.pairs| > 0 && s.pairs[0].0 != name {
      GetIsMapLookup(Store(s.pairs[1..]), name);
    }
  }

  /** `Add` is map update: the written name takes the new value, nothing else changes. */
  lemma AddIsMapUpdate<V>(s: Store<V>, name: string, value: V)
    ensures ToMap(Add(s, name, value).pairs) == ToMap(s.pairs)[name := value]
  {
    var m, m' := ToMap(s.pairs)[name := value], ToMap(Add(s, name, value).pairs);
    forall k ensures (k in m' <==> k in m) && (k in m ==> m'[k] == m[k]) {
      GetIsMapLookup(Add(s, name, value), k);
      GetIsMapLookup(s, k);
    }
  }

  /** The last writer wins: a second write to a name erases every trace of the first. */
  lemma LastWriterWins<V>(s: Store<V>, name: string, v1: V, v2: V)
    ensures Add(Add(s, name, v1), name, v2) == Add(s, name, v2)
  {
    AssignTwice(s.pairs, name, v1, v2);
  }

  lemma AssignTwice<V>(p: seq<(string, V)>, name: string, v1: V, v2: V)
    ensures Assign(Assign(p, name, v1), name, v2) == Assign(p, name, v2)
  {
    if exists i :: 0 <= i < |p| && p[i].0 == name {
      var i :| 0 <= i < |p| && p[i].0 == name;
      ReplaceShape(p, name, v1);
      assert Replace(p, name, v1)[i].0 == name;
      ReplaceTwice(p, name, v1, v2);
    } else {
      var once := p + [(name, v1)];
      assert once[|p|].0 == name;
      ReplaceAppended(p, name, v1, v2);
    }
  }

  lemma {:induction false} ReplaceTwice<V>(p: seq<(string, V)>, name: string, v1: V, v2: V)
    ensures Replace(Replace(p, name, v1), name, v2) == Replace(p, name, v2)
    decreases |p|
  {
    if |p| > 0 {
      ReplaceTwice(p[1..], name, v1, v2);
      assert Replace(p, name, v1)[1..] == Replace(p[1..], name, v1);
    }
  }

  lemma {:induction false} ReplaceAppended<V>(p: seq<(string, V)>, name: string, v1: V, v2: V)
    requires forall i :: 0 <= i < |p| ==> p[i].0 != name
    ensures Replace(p + [(name, v1)], name, v2) == p + [(name, v2)]
    decreases |p|
  {
    if |p| > 0 {
      ReplaceAppended(p[1..], name, v1, v2);
      assert (p + [(name, v1)])[1..] == p[1..] + [(name, v1)];
      assert (p + [(name, v2)])[1..] == p[1..] + [(name, v2)];
    }
  }

  /** The shared state of one process: `plugins` holds contributed artifacts
      of type `P`, `devDependencies` maps package names to version ranges. */
  datatype Registry<P> = Registry(plugins: Store<P>, devDependencies: Store<string>)

  /** The state at module load: both stores empty. */
  function Empty<P>(): Registry<P> {
    Registry(EmptyStore(), EmptyStore())
  }

  /** `getPlugin(name)`. */
  function GetPlugin<P>(r: Registry<P>, name: string): (v: Option<P>)
    ensures v.None? <==> name !in Names(r.plugins)
    ensures v.Some? ==> (name, v.value) in r.plugins.pairs
  {
    Get(r.plugins, name)
  }

  /** `addPlugin(name, value)`. */
  function AddPlugin<P>(r: Registry<P>, name: string, value: P): (r': Registry<P>)
    ensures GetPlugin(r', name) == Some(value)
    ensures forall other :: other != name ==> GetPlugin(r', other) == GetPlugin(r, other)
    ensures r'.devDependencies == r.devDependencies
  {
    r.(plugins := Add(r.plugins, name, value))
  }

  /** `getDevDependency(name)`. */
  function GetDevDependency<P>(r: Registry<P>, name: string): (v: Option<string>)
    ensures v.None? <==> name !in Names(r.devDependencies)
    ensures v.Some? ==> (name, v.value) in r.devDependencies.pairs
  {
    Get(r.devDependencies, name)
  }

  /** `addDevDependency(name, value)`. */
  function AddDevDependency<P>(r: Registry<P>, name: string, value: string): (r': Registry<P>)
    ensures GetDevDependency(r', name) == Some(value)
    ensures forall other :: other != name ==> GetDevDependency(r', other) == GetDevDependency(r, other)
    ensures r'.plugins == r.plugins
  {
    r.(devDependencies := Add(r.devDependencies, name, value))
  }

  /** The `initializing.dependencies` step: the tool records itself as a
      development dependency, `~` followed by its own version. */
  function Seed<P>(r: Registry<P>, pkgName: string, pkgVersion: string): (r': Registry<P>)
    ensures GetDevDependency(r', pkgName) == Some("~" + pkgVersion)
    ensures r == Empty() ==> r'.devDependencies.pairs == [(pkgName, "~" + pkgVersion)]
  {
    AddDevDependency(r, pkgName, "~" + pkgVersion)
  }

  /** One call an add-on makes through its capability object. */
  datatype Write<P> = PluginWrite(name: string, artifact: P) | DependencyWrite(name: string, range: string)

  function Perform<P>(r: Registry<P>, w: Write<P>): Registry<P> {
    match w
    case PluginWrite(n, a) => AddPlugin(r, n, a)
    case DependencyWrite(n, v) => AddDevDependency(r, n, v)
  }

  /** The writes, performed in order. */
  function Apply<P>(r: Registry<P>, ws: seq<Write<P>>): Registry<P>
    decreases |ws|
  {
    if |ws| == 0 then r else Apply(Perform(r, ws[0]), ws[1..])
  }

  /** The range of the last dependency write to `name`, if any. */
  function LastDependencyWrite<P>(ws: seq<Write<P>>, name: string): Option<string>
    decreases |ws|
  {
    if |ws| == 0 then None
    else
      var later := LastDependencyWrite(ws[1..], name);
      if later.Some? then later
      else if ws[0].DependencyWrite? && ws[0].name == name then Some(ws[0].range)
      else None
  }

  /** After a run of writes, a dependency holds the last value written to it,
      or its earlier value when nothing wrote to it. */
  lemma {:induction false} ApplyLastWriterWins<P>(r: Registry<P>, ws: seq<Write<P>>, name: string)
    ensures GetDevDependency(Apply(r, ws), name)
         == (if LastDependencyWrite(ws, name).Some? then LastDependencyWrite(ws, name) else GetDevDependency(r, name))
    decreases |ws|
  {
    if |ws| > 0 {
      ApplyLastWriterWins(Perform(r, ws[0]), ws[1..], name);
    }
  }

  /** Writes never drop or reorder dependency names: the earlier names stay a prefix. */
  lemma {:induction false} ApplyKeepsNamePrefix<P>(r: Registry<P>, ws: seq<Write<P>>)
    ensures Names(r.devDependencies) <= Names(Apply(r, ws).devDependencies)
    decreases |ws|
  {
    if |ws| > 0 {
      ApplyKeepsNamePrefix(Perform(r, ws[0]), ws[1..]);
    }
  }

  /** The composition driver: every selected add-on, in selection order, is
      given the registry as the earlier add-ons left it and makes its writes.
      What an add-on writes is a parameter (`addOn`), since its code is not
      part of this model. */
  function Compose<P>(r: Registry<P>, selected: seq<string>, addOn: (string, Registry<P>) -> seq<Write<P>>): Registry<P>
    decreases |selected|
  {
    if |selected| == 0 then r
    else Compose(Apply(r, addOn(selected[0], r)), selected[1..], addOn)
  }

  /** Whatever the add-ons do, the tool's own entry stays the first dependency
      of a fresh process. */
  lemma {:induction false} SeedStaysFirst<P>(pkgName: string, pkgVersion: string, selected: seq<string>,
                                             addOn: (string, Registry<P>) -> seq<Write<P>>)
    ensures var r := Compose(Seed(Empty(), pkgName, pkgVersion), selected, addOn);
            |r.devDependencies.pairs| >= 1 && r.devDependencies.pairs[0].0 == pkgName
  {
    var seeded := Seed(Empty<P>(), pkgName, pkgVersion);
    assert Names(seeded.devDependencies) == [pkgName];
    ComposeKeepsNamePrefix(seeded, selected, addOn);
    var r := Compose(seeded, selected, addOn);
    assert Names(r.devDependencies)[0] == pkgName;
  }

  lemma {:induction false} ComposeKeepsNamePrefix<P>(r: Registry<P>, selected: seq<string>,
                                                     addOn: (string, Registry<P>) -> seq<Write<P>>)
    ensures Names(r.devDependencies) <= Names(Compose(r, selected, addOn).devDependencies)
    decreases |selected|
  {
    if |selected| > 0 {
      ApplyKeepsNamePrefix(r, addOn(selected[0], r));
      ComposeKeepsNamePrefix(Apply(r, addOn(selected[0], r)), selected[1..], addOn);
    }
  }

  /** Only the selected add-ons act: two add-on behaviours that agree on
      every selected name compose to the same registry. */
  lemma {:induction false} ComposeOnlySelected<P>(r: Registry<P>, selected: seq<string>,
                                                  a1: (string, Registry<P>) -> seq<Write<P>>,
                                                  a2: (string, Registry<P>) -> seq<Write<P>>)
    requires forall n, q :: n in selected ==> a1(n, q) == a2(n, q)
    ensures Compose(r, selected, a1) == Compose(r, selected, a2)
    decreases |selected|
  {
    if |selected| > 0 {
      assert a1(selected[0], r) == a2(selected[0], r);
      var next := Apply(r, a1(selected[0], r));
      forall n, q | n in selected[1..] ensures a1(n, q) == a2(n, q) {
        assert n in selected;
      }
      ComposeOnlySelected(next, selected[1..], a1, a2);
    }
  }

  /** Composition runs the selection front to back: composing `s1 + s2` is
      composing `s1` and then, from where it left the registry, `s2`. */
  lemma {:induction false} ComposeSplit<P>(r: Registry<P>, s1: seq<string>, s2: seq<string>,
                                           addOn: (string, Registry<P>) -> seq<Write<P>>)
    ensures Compose(r, s1 + s2, addOn) == Compose(Compose(r, s1, addOn), s2, addOn)
    decreases |s1|
  {
    if |s1| > 0 {
      assert (s1 + s2)[0] == s1[0];
      assert (s1 + s2)[1..] == s1[1..] + s2;
      ComposeSplit(Apply(r, addOn(s1[0], r)), s1[1..], s2, addOn);
    } else {
      assert s1 + s2 == s2;
    }
  }

  /** Add-ons that never write dependency `name` leave its value alone. */
  lemma {:induction false} ComposeUntouched<P>(r: Registry<P>, selected: seq<string>,
                                               addOn: (string, Registry<P>) -> seq<Write<P>>, name: string)
    requires forall j, q :: 0 <= j < |selected| ==> LastDependencyWrite(addOn(selected[j], q), name).None?
    ensures GetDevDependency(Compose(r, selected, addOn), name) == GetDevDependency(r, name)
    decreases |selected|
  {
    if |selected| > 0 {
      var next := Apply(r, addOn(selected[0], r));
      assert LastDependencyWrite(addOn(selected[0], r), name).None?;
      ApplyLastWriterWins(r, addOn(selected[0], r), name);
      forall j, q | 0 <= j < |selected[1..]|
        ensures LastDependencyWrite(addOn(selected[1..][j], q), name).None?
      {
        assert selected[1..][j] == selected[j + 1];
      }
      ComposeUntouched(next, selected[1..], addOn, name);
    }
  }

  /** Across add-ons the last writer wins, in selection order: when the add-on
      at position `i` always ends by writing `name := value` and no add-on
      after it writes `name`, the composed registry holds `value`, whatever
      the add-ons before it wrote. */
  lemma {:induction false} ComposeLastWriterWins<P>(r: Registry<P>, selected: seq<string>,
                                                    addOn: (string, Registry<P>) -> seq<Write<P>>,
                                                    i: nat, name: string, value: string)
    requires i < |selected|
    requires forall q :: LastDependencyWrite(addOn(selected[i], q), name) == Some(value)
    requires forall j, q :: i < j < |selected| ==> LastDependencyWrite(addOn(selected[j], q), name).None?
    ensures GetDevDependency(Compose(r, selected, addOn), name) == Some(value)
    decreases |selected|
  {
    var next := Apply(r, addOn(selected[0], r));
    if i == 0 {
      ApplyLastWriterWins(r, addOn(selected[0], r), name);
      forall j, q | 0 <= j < |selected[1..]|
        ensures LastDependencyWrite(addOn(selected[1..][j], q), name).None?
      {
        assert selected[1..][j] == selected[j + 1];
      }
      ComposeUntouched(next, selected[1..], addOn, name);
    } else {
      assert selected[1..][i - 1] == selected[i];
      forall j, q | i - 1 < j < |selected[1..]|
        ensures LastDependencyWrite(addOn(selected[1..][j], q), name).None?
      {
        assert selected[1..][j] == selected[j + 1];
      }
      ComposeLastWriterWins(next, selected[1..], addOn, i - 1, name, value);
    }
  }

  /** Glue between rendered dependency lines. */
  const LineSeparator := ",\n    "

  /** One dependency as a manifest line: `"name": "range"`. */
  function Line(name: string, range: string): string {
    "\"" + name + "\": \"" + range + "\""
  }

  function Lines(pairs: seq<(string, string)>): (ls: seq<string>)
    ensures |ls| == |pairs|
    ensures forall i :: 0 <= i < |pairs| ==> ls[i] == Line(pairs[i].0, pairs[i].1)
  {
    seq(|pairs|, i requires 0 <= i < |pairs| => Line(pairs[i].0, pairs[i].1))
  }

  /** `config.dev_dependencies`: the dependency pairs as lines, in insertion order. */
  function RenderDependencies(s: Store<string>): string {
    Join(Lines(s.pairs), LineSeparator)
  }

  /** The `_.map(...).join(...)` of app/index.js as a loop over the pairs. */
  method RenderDependenciesLoop(s: Store<string>) returns (text: string)
    ensures text == RenderDependencies(s)
  {
    text := "";
    var i := 0;
    while i < |s.pairs|
      invariant 0 <= i <= |s.pairs|
      invariant text == Join(Lines(s.pairs[..i]), LineSeparator)
    {
      var line := Line(s.pairs[i].0, s.pairs[i].1);
      assert Lines(s.pairs[..i + 1]) == Lines(s.pairs[..i]) + [line];
      if i == 0 {
        text := line;
      } else {
        JoinSnoc(Lines(s.pairs[..i]), line, LineSeparator);
        text := text + LineSeparator + line;
      }
      i := i + 1;
    }
    assert s.pairs[..i] == s.pairs;
  }

  /** An empty store renders as the empty string. */
  lemma RenderEmpty()
    ensures RenderDependencies(EmptyStore()) == ""
  {
  }

  /** Adding a new dependency appends its line, after the separator unless it is the first. */
  lemma RenderAdd(s: Store<string>, name: string, range: string)
    requires name !in Names(s)
    ensures RenderDependencies(Add(s, name, range))
         == RenderDependencies(s) + (if |s.pairs| == 0 then "" else LineSeparator) + Line(name, range)
  {
    AddAppends(s, name, range);
    LinesSnoc(s.pairs, (name, range));
    if |s.pairs| > 0 {
      JoinSnoc(Lines(s.pairs), Line(name, range), LineSeparator);
    }
  }

  /** Adding a name not yet present appends its pair. */
  lemma AddAppends<V>(s: Store<V>, name: string, value: V)
    requires name !in Names(s)
    ensures Add(s, name, value).pairs == s.pairs + [(name, value)]
  {
    assert !exists i :: 0 <= i < |s.pairs| && s.pairs[i].0 == name by {
      forall i | 0 <= i < |s.pairs| ensures s.pairs[i].0 != name {
        assert Names(s)[i] == s.pairs[i].0;
      }
    }
  }

  lemma LinesSnoc(pairs: seq<(string, string)>, p: (string, string))
    ensures Lines(pairs + [p]) == Lines(pairs) + [Line(p.0, p.1)]
  {
  }

  /** The rendered block of a non-empty store opens with the line of its first pair. */
  lemma RenderStartsWithFirst(s: Store<string>)
    requires |s.pairs| >= 1
    ensures Line(s.pairs[0].0, s.pairs[0].1) <= RenderDependencies(s)
  {
    JoinStartsWithFirst(Lines(s.pairs), LineSeparator);
  }

  /** The example of two contributions: both lines, comma-newline joined, in order. */
  lemma RenderTwoDependencies()
    ensures RenderDependencies(Store([("a", "^1.0"), ("b", "~2.3")]))
         == "\"a\": \"^1.0\",\n    \"b\": \"~2.3\""
  {
    RenderPair(("a", "^1.0"), ("b", "~2.3"));
    assert Line("a", "^1.0") == "\"a\": \"^1.0\"";
    assert Line("b", "~2.3") == "\"b\": \"~2.3\"";
  }

  /** A store of two pairs renders as their lines around one separator. */
  lemma RenderPair(a: (string, string), b: (string, string))
    ensures RenderDependencies(Store([a, b])) == Line(a.0, a.1) + LineSeparator + Line(b.0, b.1)
  {
    var ls := Lines([a, b]);
    assert ls == [Line(a.0, a.1), Line(b.0, b.1)];
    assert ls[1..] == [Line(b.0, b.1)];
    assert Join(ls[1..], LineSeparator) == Line(b.0, b.1);
    assert Join(ls, LineSeparator) == ls[0] + LineSeparator + Join(ls[1..], LineSeparator);
  }
}

=== FILE: sorting.dfy ===
/** The `.sortBy('label').sortBy('category')` steps of the catalog pipeline in
    app/index.js. lodash's `sortBy` is a stable ascending sort; its comparison
    puts every defined value before `undefined` and orders strings with
    JavaScript's `<`. Each pass is modelled as a stable insertion sort on one
    field. */
module Sorting {
  import opened Wrappers
  import opened Text
  import opened Catalog

  datatype Field = Label | Category

  /** The value a field contributes to the comparison. */
  datatype SortValue = Defined(text: string) | Undefined

  function KeyOf(e: Entry, f: Field): SortValue {
    match f
    case Label => if e.sortLabel.Some? then Defined(e.sortLabel.value) else Undefined
    case Category => Defined(e.category)
  }

  /** lodash's ascending comparison: `a` strictly before `b`. */
  predicate Below(a: SortValue, b: SortValue) {
    match (a, b)
    case (Defined(x), Defined(y)) => StrLess(x, y)
    case (Defined(_), Undefined) => true
    case (Undefined, _) => false
  }

  lemma BelowIrreflexive(a: SortValue)
    ensures !Below(a, a)
  {
    if a.Defined? {
      StrLessIrreflexive(a.text);
    }
  }

  lemma BelowTransitive(a: SortValue, b: SortValue, c: SortValue)
    requires Below(a, b) && Below(b, c)
    ensures Below(a, c)
  {
    if c.Defined? {
      StrLessTransitive(a.text, b.text, c.text);
    }
  }

  lemma BelowTotal(a: SortValue, b: SortValue)
    requires a != b
    ensures Below(a, b) || Below(b, a)
  {
    if a.Defined? && b.Defined? {
      StrLessTotal(a.text, b.text);
    }
  }

  /** No entry is followed by one whose field value comes strictly before its own. */
  ghost predicate SortedBy(s: seq<Entry>, f: Field) {
    forall i, j :: 0 <= i < j < |s| ==> !Below(KeyOf(s[j], f), KeyOf(s[i], f))
  }

  /** Places `x` before the first element whose value is not strictly below its own. */
  function Insert(x: Entry, ys: seq<Entry>, f: Field): (r: seq<Entry>)
    ensures multiset(r) == multiset(ys) + multiset{x}
    decreases |ys|
  {
    if |ys| == 0 || !Below(KeyOf(ys[0], f), KeyOf(x, f)) then [x] + ys
    else
      assert ys == [ys[0]] + ys[1..];
      [ys[0]] + Insert(x, ys[1..], f)
  }

  /** `_.sortBy(xs, f)`: each element is inserted, from the last to the first,
      in front of every later element with the same value. */
  function SortBy(xs: seq<Entry>, f: Field): (r: seq<Entry>)
    ensures multiset(r) == multiset(xs)
    decreases |xs|
  {
    if |xs| == 0 then []
    else
      assert xs == [xs[0]] + xs[1..];
      Insert(xs[0], SortBy(xs[1..], f), f)
  }

  lemma {:induction false} InsertSorted(x: Entry, ys: seq<Entry>, f: Field)
    requires SortedBy(ys, f)
    ensures SortedBy(Insert(x, ys, f), f)
    decreases |ys|
  {
    if |ys| > 0 && Below(KeyOf(ys[0], f), KeyOf(x, f)) {
      InsertSorted(x, ys[1..], f);
      InsertSortedPast(x, ys, f);
    } else {
      InsertSortedFront(x, ys, f);
    }
  }

  /** Placed in front, `x` is not after anything strictly below it. */
  lemma InsertSortedFront(x: Entry, ys: seq<Entry>, f: Field)
    requires SortedBy(ys, f)
    requires |ys| > 0 ==> !Below(KeyOf(ys[0], f), KeyOf(x, f))
    ensures SortedBy([x] + ys, f)
  {
    var r := [x] + ys;
    forall i, j | 0 <= i < j < |r| ensures !Below(KeyOf(r[j], f), KeyOf(r[i], f)) {
      if i == 0 {
        if j > 1 && Below(KeyOf(r[j], f), KeyOf(x, f)) {
          assert r[j] == ys[j - 1];
          assert !Below(KeyOf(ys[j - 1], f), KeyOf(ys[0], f));
          if KeyOf(ys[j - 1], f) != KeyOf(ys[0], f) {
            BelowTotal(KeyOf(ys[j - 1], f), KeyOf(ys[0], f));
            BelowTransitive(KeyOf(ys[0], f), KeyOf(ys[j - 1], f), KeyOf(x, f));
          }
        }
      } else {
        assert r[i] == ys[i - 1] && r[j] == ys[j - 1];
      }
    }
  }

  /** Passing the head, `x` lands in a sorted tail that the head still precedes. */
  lemma InsertSortedPast(x: Entry, ys: seq<Entry>, f: Field)
    requires SortedBy(ys, f)
    requires |ys| > 0 && Below(KeyOf(ys[0], f), KeyOf(x, f))
    requires SortedBy(Insert(x, ys[1..], f), f)
    ensures SortedBy(Insert(x, ys, f), f)
  {
    var tail := Insert(x, ys[1..], f);
    forall e | e in tail ensures !Below(KeyOf(e, f), KeyOf(ys[0], f)) {
      HeadPrecedes(x, ys, f, e);
    }
    ConsSorted(ys[0], tail, f);
  }

  /** A sorted sequence stays sorted behind a head nothing in it precedes. */
  lemma ConsSorted(h: Entry, t: seq<Entry>, f: Field)
    requires SortedBy(t, f)
    requires forall e :: e in t ==> !Below(KeyOf(e, f), KeyOf(h, f))
    ensures SortedBy([h] + t, f)
  {
    var r := [h] + t;
    forall i, j | 0 <= i < j < |r| ensures !Below(KeyOf(r[j], f), KeyOf(r[i], f)) {
      assert r[j] == t[j - 1];
      if i > 0 {
        assert r[i] == t[i - 1];
      } else {
        assert t[j - 1] in t;
      }
    }
  }

  /** Nothing in the tail with `x` inserted comes strictly before the head. */
  lemma HeadPrecedes(x: Entry, ys: seq<Entry>, f: Field, e: Entry)
    requires SortedBy(ys, f)
    requires |ys| > 0 && Below(KeyOf(ys[0], f), KeyOf(x, f))
    requires e in Insert(x, ys[1..], f)
    ensures !Below(KeyOf(e, f), KeyOf(ys[0], f))
  {
    assert e in multiset(Insert(x, ys[1..], f));
    assert e in multiset(ys[1..]) + multiset{x};
    if e == x {
      if Below(KeyOf(x, f), KeyOf(ys[0], f)) {
        BelowTransitive(KeyOf(x, f), KeyOf(ys[0], f), KeyOf(x, f));
        BelowIrreflexive(KeyOf(x, f));
      }
    } else {
      assert e in ys[1..];
      var k :| 0 <= k < |ys[1..]| && ys[1..][k] == e;
      assert ys[k + 1] == e;
    }
  }

  /** Each pass yields its input sorted by the field. */
  lemma {:induction false} SortBySorted(xs: seq<Entry>, f: Field)
    ensures SortedBy(SortBy(xs, f), f)
    decreases |xs|
  {
    if |xs| > 0 {
      SortBySorted(xs[1..], f);
      InsertSorted(xs[0], SortBy(xs[1..], f), f);
    }
  }

  /** The entries whose field `f` has value `v`, in order. */
  function Filter(s: seq<Entry>, f: Field, v: SortValue): (r: seq<Entry>)
    ensures forall e :: e in r ==> e in s && KeyOf(e, f) == v
    decreases |s|
  {
    if |s| == 0 then []
    else if KeyOf(s[0], f) == v then [s[0]] + Filter(s[1..], f, v)
    else Filter(s[1..], f, v)
  }

  lemma {:induction false} InsertFilter(x: Entry, ys: seq<Entry>, f: Field, v: SortValue)
    ensures Filter(Insert(x, ys, f), f, v) == (if KeyOf(x, f) == v then [x] else []) + Filter(ys, f, v)
    decreases |ys|
  {
    if |ys| == 0 || !Below(KeyOf(ys[0], f), KeyOf(x, f)) {
      assert ([x] + ys)[1..] == ys;
    } else {
      InsertFilter(x, ys[1..], f, v);
      assert ([ys[0]] + Insert(x, ys[1..], f))[1..] == Insert(x, ys[1..], f);
      if KeyOf(x, f) == v && KeyOf(ys[0], f) == v {
        BelowIrreflexive(v);
      }
    }
  }

  /** Stability: the entries sharing any one value keep their input order. */
  lemma {:induction false} SortByStable(xs: seq<Entry>, f: Field, v: SortValue)
    ensures Filter(SortBy(xs, f), f, v) == Filter(xs, f, v)
    decreases |xs|
  {
    if |xs| > 0 {
      SortByStable(xs[1..], f, v);
      InsertFilter(xs[0], SortBy(xs[1..], f), f, v);
    }
  }

  /** Keeping a sub-sequence keeps sortedness on any field. */
  lemma {:induction false} FilterKeepsSorted(s: seq<Entry>, f: Field, v: SortValue, g: Field)
    requires SortedBy(s, g)
    ensures SortedBy(Filter(s, f, v), g)
    decreases |s|
  {
    if |s| > 0 {
      TailSorted(s, g);
      FilterKeepsSorted(s[1..], f, v, g);
      if KeyOf(s[0], f) == v {
        var rest := Filter(s[1..], f, v);
        forall e | e in rest ensures !Below(KeyOf(e, g), KeyOf(s[0], g)) {
          assert e in s[1..];
          var k :| 0 <= k < |s[1..]| && s[1..][k] == e;
          assert s[k + 1] == e;
        }
        ConsSorted(s[0], rest, g);
      }
    }
  }

  lemma TailSorted(s: seq<Entry>, g: Field)
    requires |s| > 0 && SortedBy(s, g)
    ensures SortedBy(s[1..], g)
  {
    forall i, j | 0 <= i < j < |s[1..]| ensures !Below(KeyOf(s[1..][j], g), KeyOf(s[1..][i], g)) {
      assert s[1..][i] == s[i + 1] && s[1..][j] == s[j + 1];
    }
  }

  /** Filters on two fields commute. */
  lemma {:induction false} FiltersCommute(s: seq<Entry>, f: Field, a: SortValue, g: Field, b: SortValue)
    ensures Filter(Filter(s, f, a), g, b) == Filter(Filter(s, g, b), f, a)
    decreases |s|
  {
    if |s| > 0 {
      FiltersCommute(s[1..], f, a, g, b);
    }
  }

  /** The two passes: label first, then category. */
  function CatalogOrder(xs: seq<Entry>): (r: seq<Entry>)
    ensures multiset(r) == multiset(xs)
  {
    SortBy(SortBy(xs, Label), Category)
  }

  /** The sorted catalog is ordered by category, by label within each
      category, and entries equal in both keep their input order. */
  lemma CatalogOrderSpec(xs: seq<Entry>)
    ensures SortedBy(CatalogOrder(xs), Category)
    ensures forall c :: SortedBy(Filter(CatalogOrder(xs), Category, c), Label)
    ensures forall c, l :: Filter(Filter(CatalogOrder(xs), Category, c), Label, l)
                        == Filter(Filter(xs, Category, c), Label, l)
  {
    var byLabel := SortBy(xs, Label);
    SortBySorted(byLabel, Category);
    SortBySorted(xs, Label);
    forall c ensures SortedBy(Filter(CatalogOrder(xs), Category, c), Label) {
      SortByStable(byLabel, Category, c);
      FilterKeepsSorted(byLabel, Category, c, Label);
    }
    forall c, l ensures Filter(Filter(CatalogOrder(xs), Category, c), Label, l)
                     == Filter(Filter(xs, Category, c), Label, l)
    {
      SortByStable(byLabel, Category, c);
      FiltersCommute(byLabel, Category, c, Label, l);
      SortByStable(xs, Label, l);
      FiltersCommute(xs, Label, l, Category, c);
    }
  }
}

=== FILE: text.dfy ===
/** String helpers shared by the model: JavaScript's `split` on a one-character
    separator, `Array.prototype.join`, the relational `<` on strings and the
    decimal rendering of an array index. */
module Text {

  /** `s.split(d)`: the pieces of `s` between occurrences of `d`. */
  function Split(s: string, d: char): (parts: seq<string>)
    ensures |parts| >= 1
    ensures forall i :: 0 <= i < |parts| ==> d !in parts[i]
    decreases |s|
  {
    if |s| == 0 then [""]
    else
      var rest := Split(s[1..], d);
      if s[0] == d then [""] + rest
      else [[s[0]] + rest[0]] + rest[1..]
  }

  /** `parts.join(sep)`. */
  function Join(parts: seq<string>, sep: string): string
    decreases |parts|
  {
    if |parts| == 0 then ""
    else if |parts| == 1 then parts[0]
    else parts[0] + sep + Join(parts[1..], sep)
  }

  /** Joining the pieces of a split with the separator gives back the string. */
  lemma {:induction false} JoinSplit(s: string, d: char)
    ensures Join(Split(s, d), [d]) == s
    decreases |s|
  {
    if |s| > 0 {
      var rest := Split(s[1..], d);
      JoinSplit(s[1..], d);
      assert s == [s[0]] + s[1..];
      if s[0] == d {
        assert Join([""] + rest, [d]) == "" + [d] + Join(rest, [d]);
      } else if |rest| == 1 {
        assert Join(rest, [d]) == rest[0];
      } else {
        var parts := [[s[0]] + rest[0]] + rest[1..];
        assert parts[1..] == rest[1..];
        assert Join(rest, [d]) == rest[0] + [d] + Join(rest[1..], [d]);
      }
    }
  }

  /** A string free of the separator splits into itself alone. */
  lemma {:induction false} SplitFree(s: string, d: char)
    requires d !in s
    ensures Split(s, d) == [s]
    decreases |s|
  {
    if |s| > 0 {
      assert d !in s[1..] by {
        forall i | 0 <= i < |s[1..]| ensures s[1..][i] != d {
          assert s[1..][i] == s[i + 1];
        }
      }
      SplitFree(s[1..], d);
      assert s == [s[0]] + s[1..];
    }
  }

  /** Splitting `a + d + r`, where `a` is free of `d`, yields `a` then the pieces of `r`. */
  lemma {:induction false} SplitAfterFreePrefix(a: string, d: char, r: string)
    requires d !in a
    ensures Split(a + [d] + r, d) == [a] + Split(r, d)
    decreases |a|
  {
    var s := a + [d] + r;
    if |a| == 0 {
      assert s == [d] + r;
      assert s[1..] == r;
    } else {
      assert d !in a[1..] by {
        forall i | 0 <= i < |a[1..]| ensures a[1..][i] != d {
          assert a[1..][i] == a[i + 1];
        }
      }
      SplitAfterFreePrefix(a[1..], d, r);
      assert s[1..] == a[1..] + [d] + r;
      assert s[0] == a[0];
      assert [a[0]] + a[1..] == a;
    }
  }

  /** Splitting a join of separator-free pieces gives the pieces back. */
  lemma {:induction false} SplitJoin(parts: seq<string>, d: char)
    requires |parts| >= 1
    requires forall i :: 0 <= i < |parts| ==> d !in parts[i]
    ensures Split(Join(parts, [d]), d) == parts
    decreases |parts|
  {
    if |parts| == 1 {
      SplitFree(parts[0], d);
    } else {
      SplitJoin(parts[1..], d);
      SplitAfterFreePrefix(parts[0], d, Join(parts[1..], [d]));
      assert [parts[0]] + parts[1..] == parts;
    }
  }

  /** Joining one more piece onto a non-empty list appends separator and piece. */
  lemma {:induction false} JoinSnoc(parts: seq<string>, x: string, sep: string)
    requires |parts| >= 1
    ensures Join(parts + [x], sep) == Join(parts, sep) + sep + x
    decreases |parts|
  {
    if |parts| == 1 {
      assert (parts + [x])[1..] == [x];
    } else {
      assert (parts + [x])[1..] == parts[1..] + [x];
      JoinSnoc(parts[1..], x, sep);
    }
  }

  /** A non-empty join starts with its first piece. */
  lemma {:induction false} JoinStartsWithFirst(parts: seq<string>, sep: string)
    requires |parts| >= 1
    ensures parts[0] <= Join(parts, sep)
  {
  }

  /** JavaScript's `a < b` on two strings: lexicographic on characters, a proper
      prefix coming first. */
  predicate StrLess(a: string, b: string)
    decreases |a|
  {
    if |a| == 0 then |b| > 0
    else if |b| == 0 then false
    else if a[0] != b[0] then a[0] < b[0]
    else StrLess(a[1..], b[1..])
  }

  lemma {:induction false} StrLessIrreflexive(a: string)
    ensures !StrLess(a, a)
    decreases |a|
  {
    if |a| > 0 {
      StrLessIrreflexive(a[1..]);
    }
  }

  lemma {:induction false} StrLessTransitive(a: string, b: string, c: string)
    requires StrLess(a, b) && StrLess(b, c)
    ensures StrLess(a, c)
    decreases |a|
  {
    if |a| > 0 && a[0] == b[0] && b[0] == c[0] {
      StrLessTransitive(a[1..], b[1..], c[1..]);
    }
  }

  /** Two different strings are ordered one way or the other. */
  lemma {:induction false} StrLessTotal(a: string, b: string)
    requires a != b
    ensures StrLess(a, b) || StrLess(b, a)
    decreases |a|
  {
    if |a| > 0 && |b| > 0 && a[0] == b[0] {
      assert a == [a[0]] + a[1..] && b == [b[0]] + b[1..];
      StrLessTotal(a[1..], b[1..]);
    }
  }

  function DigitChar(d: nat): char
    requires d < 10
  {
    "0123456789"[d]
  }

  /** `String(n)` for an array index: its decimal digits, no leading zero. */
  function Decimal(n: nat): (s: string)
    ensures |s| >= 1
    ensures forall i :: 0 <= i < |s| ==> '0' <= s[i] <= '9'
    decreases n
  {
    if n < 10 then [DigitChar(n)] else Decimal(n / 10) + [DigitChar(n % 10)]
  }

  /** The number a string of decimal digits denotes. */
  function DecimalValue(s: string): nat
    requires forall i :: 0 <= i < |s| ==> '0' <= s[i] <= '9'
    decreases |s|
  {
    if |s| == 0 then 0
    else DecimalValue(s[..|s| - 1]) * 10 + (s[|s| - 1] as int - '0' as int)
  }

  lemma DigitCharValue(d: nat)
    requires d < 10
    ensures '0' <= DigitChar(d) <= '9' && DigitChar(d) as int - '0' as int == d
  {
  }

  /** Reading back the digits of an index gives the index. */
  lemma {:induction false} DecimalRoundTrip(n: nat)
    ensures DecimalValue(Decimal(n)) == n
    decreases n
  {
    var d := n % 10;
    DigitCharValue(d);
    if n < 10 {
      assert Decimal(n) == [DigitChar(n)];
      assert Decimal(n)[..0] == [];
    } else {
      DecimalRoundTrip(n / 10);
      var high := Decimal(n / 10);
      var s := high + [DigitChar(d)];
      assert Decimal(n) == s;
      assert s[..|s| - 1] == high;
      assert DecimalValue(s) == DecimalValue(high) * 10 + d;
      assert (n / 10) * 10 + d == n;
    }
  }

  /** Distinct indexes have distinct decimal keys. */
  lemma DecimalInjective(m: nat, n: nat)
    ensures Decimal(m) == Decimal(n) <==> m == n
  {
    DecimalRoundTrip(m);
    DecimalRoundTrip(n);
  }
}

=== FILE: transfer.dfy ===
// The repository step of the writing phase (app/index.js): which paths of
// the fetched starter repository are handed to `copyTpl` to be copied as
// they are. The glob lists directories as well as files. Templates are the
// paths whose name ends in `_` (the template glob of line 212); every other
// path is transferred.
//
// As written the exclusion does not do what its comment says: `_.each`
// returns the array it was given, so the "template map" is the template
// list itself, its values are the templates and its keys are the index
// strings "0", "1", ... The renamed targets computed inside the callback
// are thrown away. `TransferFiles` models the code as written;
// `TransferIntended` models the evident intent (templates and their
// targets excluded).
module Transfer {
  import opened Text

  /** `_.difference(xs, ys)`: the elements of `xs` that are not in `ys`, in
      their order, repeats kept. */
  function Difference(xs: seq<string>, ys: seq<string>): (r: seq<string>)
    ensures |r| <= |xs|
    decreases |xs|
  {
    if |xs| == 0 then []
    else (if xs[0] in ys then [] else [xs[0]]) + Difference(xs[1..], ys)
  }

  /** A path is kept exactly when it is among `xs` and not among `ys`. */
  lemma {:induction false} DifferenceIff(xs: seq<string>, ys: seq<string>)
    ensures forall x :: x in Difference(xs, ys) <==> x in xs && x !in ys
    decreases |xs|
  {
    if |xs| > 0 {
      DifferenceIff(xs[1..], ys);
      assert xs == [xs[0]] + xs[1..];
    }
  }

  /** `a` is `b` with some elements left out, the rest in order. */
  ghost predicate Subsequence(a: seq<string>, b: seq<string>)
    decreases |b|
  {
    if |a| == 0 then true
    else if |b| == 0 then false
    else (a[0] == b[0] && Subsequence(a[1..], b[1..])) || Subsequence(a, b[1..])
  }

  /** The difference keeps the order of `xs`. */
  lemma {:induction false} DifferenceSubsequence(xs: seq<string>, ys: seq<string>)
    ensures Subsequence(Difference(xs, ys), xs)
    decreases |xs|
  {
    if |xs| > 0 {
      DifferenceSubsequence(xs[1..], ys);
      var r := Difference(xs, ys);
      if xs[0] !in ys {
        assert r[0] == xs[0] && r[1..] == Difference(xs[1..], ys);
      } else {
        assert r == Difference(xs[1..], ys);
      }
    }
  }

  /** A kept path appears as often as in `xs`; an excluded one not at all. */
  lemma {:induction false} DifferenceCount(xs: seq<string>, ys: seq<string>, x: string)
    ensures multiset(Difference(xs, ys))[x] == if x in ys then 0 else multiset(xs)[x]
    decreases |xs|
  {
    if |xs| > 0 {
      DifferenceCount(xs[1..], ys, x);
      assert xs == [xs[0]] + xs[1..];
    }
  }

  /** `_.keys` of an array of `n` elements: the strings "0" to n-1. */
  function IndexKeys(n: nat): (ks: seq<string>)
    ensures |ks| == n
    ensures forall i :: 0 <= i < n ==> ks[i] == Decimal(i)
  {
    seq(n, i requires 0 <= i < n => Decimal(i))
  }

  /** `p` is the key of one of the first `n` array positions. */
  ghost predicate IndexBelow(p: string, n: nat) {
    exists i :: 0 <= i < n && p == Decimal(i)
  }

  /** The paths handed to `copyTpl`, as app/index.js computes them: the paths minus the
      templates minus the index strings of the template list. */
  function TransferFiles(files: seq<string>, templates: seq<string>): seq<string> {
    Difference(files, templates + IndexKeys(|templates|))
  }

  /** A path is handed to `copyTpl` exactly when it is neither a template nor one of the
      strings "0" to n-1, where n is the number of templates. */
  lemma TransferIff(files: seq<string>, templates: seq<string>, x: string)
    ensures x in TransferFiles(files, templates)
        <==> x in files && x !in templates && !IndexBelow(x, |templates|)
  {
    var keys := IndexKeys(|templates|);
    DifferenceIff(files, templates + keys);
    if IndexBelow(x, |templates|) {
      var i :| 0 <= i < |templates| && x == Decimal(i);
      assert keys[i] == x;
    }
  }

  /** The transferred paths keep their order and multiplicity among the listed paths. */
  lemma TransferOrder(files: seq<string>, templates: seq<string>)
    ensures Subsequence(TransferFiles(files, templates), files)
    ensures forall x :: x in TransferFiles(files, templates) ==>
              multiset(TransferFiles(files, templates))[x] == multiset(files)[x]
  {
    DifferenceSubsequence(files, templates + IndexKeys(|templates|));
    forall x | x in TransferFiles(files, templates)
      ensures multiset(TransferFiles(files, templates))[x] == multiset(files)[x]
    {
      DifferenceCount(files, templates + IndexKeys(|templates|), x);
    }
  }

  /** A path with a character other than a digit is never an index string,
      so it is transferred unless it is a template. */
  lemma NonNumericFileKept(files: seq<string>, templates: seq<string>, x: string, k: nat)
    requires x in files && x !in templates
    requires k < |x| && !('0' <= x[k] <= '9')
    ensures x in TransferFiles(files, templates)
  {
    TransferIff(files, templates, x);
  }

  /** The template glob of line 212, without `dot`: no path segment is
      empty or starts with `.`, and the name ends in `_`. */
  ghost predicate TemplateGlob(p: string) {
    var segs := Split(p, '/');
    && (forall i :: 0 <= i < |segs| ==> |segs[i]| > 0 && segs[i][0] != '.')
    && segs[|segs| - 1][|segs[|segs| - 1]| - 1] == '_'
  }

  /** When the templates are the glob's matches, no transferred path is a template. */
  lemma NoTemplateTransferred(files: seq<string>, templates: seq<string>)
    requires forall f :: f in files && TemplateGlob(f) ==> f in templates
    ensures forall x :: x in TransferFiles(files, templates) ==> !TemplateGlob(x)
  {
    DifferenceIff(files, templates + IndexKeys(|templates|));
  }

  /** The name of a file: its last path segment (`path.basename`). */
  function BaseName(p: string): string {
    var segs := Split(p, '/');
    segs[|segs| - 1]
  }

  /** `path.dirname`: the segments before the last one, or `.` when the path
      has a single segment. */
  function DirName(p: string): string {
    var segs := Split(p, '/');
    if |segs| == 1 then "." else Join(segs[..|segs| - 1], "/")
  }

  /** `substring(1)`: all but the first character. */
  function DropFirst(s: string): (r: string)
    ensures |s| > 0 ==> [s[0]] + r == s
    ensures |s| == 0 ==> r == ""
  {
    if |s| == 0 then "" else s[1..]
  }

  /** The target line 219 computes for a template: its directory, `/`, and
      its name without the first (marker) character. */
  function Target(t: string): string {
    DirName(t) + "/" + DropFirst(BaseName(t))
  }

  /** A target lies in its template's directory (`.` for a top-level
      template) and is named by its template's name without the marker. */
  lemma TargetShape(t: string)
    ensures var segs := Split(t, '/');
      Split(Target(t), '/') == (if |segs| == 1 then ["."] else segs[..|segs| - 1]) + [DropFirst(BaseName(t))]
  {
    var segs := Split(t, '/');
    var dir := if |segs| == 1 then ["."] else segs[..|segs| - 1];
    var name := DropFirst(BaseName(t));
    var parts := dir + [name];
    assert Join(dir, "/") == DirName(t);
    JoinSnoc(dir, name, "/");
    forall i | 0 <= i < |parts| ensures '/' !in parts[i] {
      if i < |dir| {
        assert parts[i] == dir[i];
        if |segs| > 1 {
          assert dir[i] == segs[i];
        }
      } else {
        assert parts[i] == name;
        NameFree(BaseName(t));
      }
    }
    SplitJoin(parts, '/');
  }

  /** Dropping the marker keeps a name free of `/`. */
  lemma NameFree(s: string)
    requires '/' !in s
    ensures '/' !in DropFirst(s)
  {
    if |s| > 0 {
      assert s == [s[0]] + DropFirst(s);
    }
  }

  /** `p` without a leading `./`: `destinationPath` names the same file either
      way. */
  function Relative(p: string): (r: string)
    ensures |p| >= 2 && p[..2] == "./" ==> p == "./" + r
    ensures !(|p| >= 2 && p[..2] == "./") ==> r == p
  {
    if |p| >= 2 && p[..2] == "./" then p[2..] else p
  }

  /** The file a template is rendered to, as the glob of all files would
      list it. */
  function Rendered(t: string): string {
    Relative(Target(t))
  }

  /** The rendered files of the templates, in order. */
  function RenderedFiles(templates: seq<string>): (ts: seq<string>)
    ensures |ts| == |templates|
    ensures forall i :: 0 <= i < |ts| ==> ts[i] == Rendered(templates[i])
  {
    seq(|templates|, i requires 0 <= i < |templates| => Rendered(templates[i]))
  }

  /** The paths transferred as the exclusion was meant: neither templates nor
      the files their rendering produces. */
  function TransferIntended(files: seq<string>, templates: seq<string>): seq<string> {
    Difference(files, templates + RenderedFiles(templates))
  }

  /** Under the intended exclusion a path is transferred exactly when it is
      neither a template nor a template's rendered file; index-like names
      play no part. */
  lemma TransferIntendedIff(files: seq<string>, templates: seq<string>, x: string)
    ensures x in TransferIntended(files, templates)
        <==> x in files && x !in templates && forall t :: t in templates ==> x != Rendered(t)
  {
    var ts := RenderedFiles(templates);
    DifferenceIff(files, templates + ts);
    if exists t :: t in templates && x == Rendered(t) {
      var t :| t in templates && x == Rendered(t);
      var i :| 0 <= i < |templates| && templates[i] == t;
      assert ts[i] == x;
    }
  }

  /** A top-level template renders to its name without the marker. */
  lemma RenderedTopLevel(t: string)
    requires '/' !in t
    ensures Rendered(t) == DropFirst(t)
  {
    SplitFree(t, '/');
    assert Target(t) == "./" + DropFirst(t);
    assert Target(t)[..2] == "./";
  }

  /** A repository holding a file `0`, a directory `d` with the template
      `d/_.env_` and a committed `d/.env_` (a dot file, so the template glob
      does not match it). The templates are exactly the glob's matches. As
      written, `0` is dropped and `d/.env_` is handed to `copyTpl` and lands
      on the rendered template; as intended, `0` is kept and `d/.env_` is not. */
  lemma TransferAsWrittenCounterexample(files: seq<string>, templates: seq<string>)
    requires files == ["0", "d", "d/.env_", "d/_.env_"] && templates == ["d/_.env_"]
    ensures forall f :: f in files ==> (TemplateGlob(f) <==> f in templates)
    ensures TransferFiles(files, templates) == ["d", "d/.env_"]
    ensures TransferIntended(files, templates) == ["0", "d"]
  {
    ExampleGlobMatches(files, templates);
    ExampleAsWritten(files, templates);
    ExampleIntended(files, templates);
  }

  lemma ExampleGlobMatches(files: seq<string>, templates: seq<string>)
    requires files == ["0", "d", "d/.env_", "d/_.env_"] && templates == ["d/_.env_"]
    ensures forall f :: f in files ==> (TemplateGlob(f) <==> f in templates)
  {
    ExampleGlob();
    GlobMatchesLast(files, templates);
  }

  /** Four files of which the glob matches only the last, a template. */
  lemma GlobMatchesLast(files: seq<string>, templates: seq<string>)
    requires |files| == 4 && templates == [files[3]]
    requires !TemplateGlob(files[0]) && !TemplateGlob(files[1]) && !TemplateGlob(files[2]) && TemplateGlob(files[3])
    ensures forall f :: f in files ==> (TemplateGlob(f) <==> f in templates)
  {
  }

  lemma ExampleAsWritten(files: seq<string>, templates: seq<string>)
    requires files == ["0", "d", "d/.env_", "d/_.env_"] && templates == ["d/_.env_"]
    ensures TransferFiles(files, templates) == ["d", "d/.env_"]
  {
    assert Decimal(0) == "0";
    assert IndexKeys(1) == ["0"];
    ExampleDifference(templates + IndexKeys(|templates|), false, true);
  }

  lemma ExampleIntended(files: seq<string>, templates: seq<string>)
    requires files == ["0", "d", "d/.env_", "d/_.env_"] && templates == ["d/_.env_"]
    ensures TransferIntended(files, templates) == ["0", "d"]
  {
    var rendered: seq<string> := ["d/.env_"];
    ExampleTemplates(templates);
    assert TransferIntended(files, templates) == Difference(files, templates + rendered);
    ExampleKept(files, templates + rendered);
  }

  lemma ExampleKept(files: seq<string>, ys: seq<string>)
    requires files == ["0", "d", "d/.env_", "d/_.env_"] && ys == ["d/_.env_", "d/.env_"]
    ensures Difference(files, ys) == ["0", "d"]
  {
    ExampleDifference(ys, true, false);
  }

  lemma ExampleTemplates(templates: seq<string>)
    requires templates == ["d/_.env_"]
    ensures RenderedFiles(templates) == ["d/.env_"]
  {
    var dir, name := "d", "_.env_";
    ExampleRendered(dir, name);
    assert dir + "/" + name == "d/_.env_";
    assert templates == [dir + "/" + name];
    assert dir + "/" + ".env_" == "d/.env_";
  }

  /** The difference of the example files: "d/_.env_" always goes, the
      other three stay as the flags say. */
  lemma ExampleDifference(ys: seq<string>, keep0: bool, keepDot: bool)
    requires "d/_.env_" in ys && "d" !in ys
    requires keep0 <==> "0" !in ys
    requires keepDot <==> "d/.env_" !in ys
    ensures Difference(["0", "d", "d/.env_", "d/_.env_"], ys)
         == (if keep0 then ["0"] else []) + ["d"] + (if keepDot then ["d/.env_"] else [])
  {
    DifferenceFour("0", "d", "d/.env_", "d/_.env_", ys);
  }

  /** The difference of four paths, one at a time. */
  lemma DifferenceFour(a: string, b: string, c: string, e: string, ys: seq<string>)
    ensures Difference([a, b, c, e], ys)
         == (if a in ys then [] else [a]) + ((if b in ys then [] else [b])
          + ((if c in ys then [] else [c]) + (if e in ys then [] else [e])))
  {
    DifferenceCons(e, [], ys);
    assert [e] + [] == [e];
    DifferenceCons(c, [e], ys);
    assert [c] + [e] == [c, e];
    DifferenceCons(b, [c, e], ys);
    assert [b] + [c, e] == [b, c, e];
    DifferenceCons(a, [b, c, e], ys);
    assert [a] + [b, c, e] == [a, b, c, e];
  }

  lemma DifferenceCons(x: string, xs: seq<string>, ys: seq<string>)
    ensures Difference([x] + xs, ys) == (if x in ys then [] else [x]) + Difference(xs, ys)
  {
    assert ([x] + xs)[1..] == xs;
  }

  /** A path of one directory and one name splits into those two. */
  lemma SplitPath(dir: string, name: string)
    requires '/' !in dir && '/' !in name
    ensures Split(dir + "/" + name, '/') == [dir, name]
  {
    SplitAfterFreePrefix(dir, '/', name);
    SplitFree(name, '/');
  }

  /** The glob on a one-segment path. */
  lemma GlobOneSegment(name: string)
    requires '/' !in name
    ensures TemplateGlob(name) <==> |name| > 0 && name[0] != '.' && name[|name| - 1] == '_'
  {
    SplitFree(name, '/');
  }

  /** The glob on a path of one directory and a name. */
  lemma GlobTwoSegments(dir: string, name: string)
    requires '/' !in dir && '/' !in name
    ensures TemplateGlob(dir + "/" + name)
        <==> |dir| > 0 && dir[0] != '.' && |name| > 0 && name[0] != '.' && name[|name| - 1] == '_'
  {
    var segs := Split(dir + "/" + name, '/');
    SplitPath(dir, name);
    assert |segs| == 2 && segs[0] == dir && segs[1] == name;
    if |dir| > 0 && dir[0] != '.' && |name| > 0 && name[0] != '.' {
      forall i | 0 <= i < |segs| ensures |segs[i]| > 0 && segs[i][0] != '.' {
        if i == 0 {
          assert segs[i] == dir;
        } else {
          assert segs[i] == name;
        }
      }
    }
  }

  /** The target of a template one directory deep. */
  lemma TargetTwoSegments(dir: string, name: string)
    requires '/' !in dir && '/' !in name
    ensures Target(dir + "/" + name) == dir + "/" + DropFirst(name)
  {
    SplitPath(dir, name);
    var segs := Split(dir + "/" + name, '/');
    assert segs[..1] == [dir];
  }

  lemma ExampleGlob()
    ensures TemplateGlob("d/_.env_")
    ensures !TemplateGlob("0") && !TemplateGlob("d") && !TemplateGlob("d/.env_")
  {
    GlobOneSegment("0");
    GlobOneSegment("d");
    GlobTwoSegments("d", ".env_");
    GlobTwoSegments("d", "_.env_");
    assert "d/.env_" == "d" + "/" + ".env_";
    assert "d/_.env_" == "d" + "/" + "_.env_";
  }

  /** The rendered file of a template one directory deep, below a directory
      other than `.`. */
  lemma RenderedTwoSegments(dir: string, name: string)
    requires '/' !in dir && '/' !in name && |dir| > 0 && dir != "."
    ensures Rendered(dir + "/" + name) == dir + "/" + DropFirst(name)
  {
    TargetTwoSegments(dir, name);
    var p := dir + "/" + DropFirst(name);
    if |dir| == 1 {
      assert p[0] == dir[0] && dir[0] != '.' by {
        assert dir == [dir[0]];
      }
    } else {
      assert p[1] == dir[1] && dir[1] != '/';
    }
  }

  lemma RenderedFilesOne(t: string)
    ensures RenderedFiles([t]) == [Rendered(t)]
  {
  }

  lemma ExampleRendered(dir: string, name: string)
    requires dir == "d" && name == "_.env_"
    ensures RenderedFiles([dir + "/" + name]) == [dir + "/" + ".env_"]
  {
    RenderedTwoSegments(dir, name);
    RenderedFilesOne(dir + "/" + name);
    assert DropFirst(name) == ".env_";
  }
}

=== FILE: wrappers.dfy ===
/** The absent-or-present value used throughout the model: `None` stands for
    JavaScript's `null` or `undefined`, `Some(v)` for a defined value. */
module Wrappers {

  datatype Option<+T> = None | Some(value: T) {

    /** Returns the value held in Some, or `default` when None. */
    function GetOr(default: T): T {
      match this
      case Some(v) => v
      case None => default
    }
  }
}
